=== FILE: README.md ===
# Bank widget core: masking, filtering, sorting and card-number generation

This project models the core of a small Python banking widget and proves
properties of the model in Dafny:

- `src/masks.py`
  - `only_digits` is the digit check.
  - `format_in_blocks` cuts a text into blocks of `n` characters and joins them with single spaces.
  - `get_mask_card_number` masks a card number of 13 to 19 digits. A 16-digit number uses the fixed template `XXXX XX** **** XXXX`. Every other length shows the first six and last four digits with stars between, in blocks of four.
  - `get_mask_account` shows `**` and the last four digits.
- `src/widget.py`
  - `mask_account_card` splits a labelled line such as `"Visa Platinum 7000792289606361"` or `"Счет 73654108430135874305"` on whitespace. It routes an account (first word `Счет`) or a card (last word) to the matching masker.
- `src/processing.py`
  - `filter_by_state` keeps the records in one state.
  - `sort_by_date` sorts records by their ISO date string, newest first by default.
- `generators/generators.py`
  - `filter_by_currency` yields the records in one currency.
  - `transaction_descriptions` yields each record's description.
  - `card_number_generator` yields `f"{n:016d}"` in four blocks for every `n` from `start` to `end`.

How Python's behaviour is modelled:

- Each generator is modelled by the finite sequence of items it yields.
- Exceptions become `Result` values.
  - `ValueError` becomes `CardNotDigits`, `CardBadLength`, `AccountNotDigits` or `BadInputFormat`.
  - The `KeyError` of `x['date']` becomes `MissingKey("date")`.
- A transaction record (a Python dict) becomes the `Transactions.Transaction` datatype. It holds the keys the core reads, each optional, and an `id` that stands for the keys it never reads.
- The Python built-ins the core relies on are modelled as follows (the limits are under "## Left out"):
  - `str.strip()` and `str.split()` use CPython's whitespace set.
  - `"".join` and `" ".join` are modelled.
  - `str(int)` is modelled, including the minus sign.
  - `f"{n:016d}"` is modelled, including negative and over-long numbers.
  - Python's `<=` on strings is modelled.
  - `sorted(..., reverse=...)` is modelled as a stable insertion sort that works in either direction.

The modules follow the repository's layout:

| module | role |
|---|---|
| `Results` | shared wrappers |
| `Text` | string built-ins |
| `Decimal` | integer rendering |
| `Seqs` | list comprehensions with a condition |
| `Sorting` | `sorted` |
| `Transactions` | the record datatype |
| `Masks`, `Widget`, `Processing`, `Generators` | one module per Python file of the core |
| `Scenarios` | the examples from the repository's tests and docstrings, as lemmas |

Where the model's contracts go past the tests:

- Card masking, both paths:
  - every valid card mask, with its spaces removed, is exactly as long as the number;
  - it keeps the first six and last four digits;
  - it hides everything else behind `*`.
- The 16-digit template is what the generic path would produce anyway.
- The block format splits back into its blocks.
- Surrounding whitespace never changes a mask.
- An integer argument is masked like its decimal string. A negative one fails the digit check.
- `mask_account_card` recovers the label and the number however the words are spaced.
- `sort_by_date`:
  - returns a permutation of its input;
  - the result is ordered in the requested direction;
  - records with equal dates keep their input order;
  - it fails exactly when some record has no date.
- Each generated card number for `0 <= n < 10^16` turns back into `n`. Within that range no number is generated twice.

## Model

| member | source | states |
|---|---|---|
| Text.Split | src/widget.py:21 | `split()` returns non-empty tokens that hold no whitespace |
| Text.SplitWeave | src/widget.py:21 | however whitespace runs separate a list of whitespace-free tokens, `split()` gives back exactly those tokens |
| Text.SplitConcat | src/widget.py:21-29 | gluing the tokens of `split()` together gives the string with every whitespace character removed |
| Text.StripLeft | src/masks.py:29 | `lstrip()` drops a leading run of whitespace and nothing more: the rest starts with a non-space |
| Text.StripRight | src/masks.py:29 | `rstrip()` drops a trailing run of whitespace and nothing more: the rest ends with a non-space |
| Text.Strip | src/masks.py:29 | `strip()` is `rstrip()` after `lstrip()`; what it returns is stated by Text.StripIsTrimmedInfix, Text.StripSurrounding and Text.StripNoSpace |
| Text.StripIsTrimmedInfix | src/masks.py:29 | `strip()` returns the infix between a leading and a trailing whitespace run, and that infix starts and ends with a non-space |
| Text.StripSurrounding | src/masks.py:29 | whitespace added on either side does not change what `strip()` returns |
| Text.StripNoSpace | src/masks.py:29 | `strip()` leaves a whitespace-free string unchanged |
| Text.DigitsHaveNoSpace | src/masks.py:29 | a digit string holds no whitespace, so `strip()` cannot shorten it |
| Text.LexLeTransitive | src/processing.py:26 | the string order used as the sort key is transitive |
| Text.LexLeTotal | src/processing.py:26 | any two string keys are comparable |
| Text.LexLeAntisymmetric | src/processing.py:26 | two keys ordered both ways are equal |
| Text.LexLeCommonPrefix | src/processing.py:26 | two date keys with a common prefix compare as their remainders do |
| Decimal.NatToDecimal | src/masks.py:29 | `str(n)` of a natural number is a non-empty digit string with no leading zero |
| Decimal.ToDecimal | src/masks.py:29 | `str(n)` starts with a minus sign exactly when `n` is negative; the digits after it have no leading zero and `int` reads them back as `|n|`, so `int(str(n)) == n` |
| Decimal.ValueOfDecimal | src/masks.py:29 | the digits `str(n)` produces denote `n` |
| Decimal.DecimalOfValue | src/masks.py:29 | a digit string without a leading zero is exactly `str` of the number it denotes |
| Decimal.DecimalLength | src/masks.py:34-35 | `str(n)` has at most `k` digits exactly when `n < 10^k` |
| Decimal.ZeroFilled | generators/generators.py:48 | `f"{n:016d}"` is at least 16 characters; for `n >= 0` it is `str(n)` left-padded with zeros |
| Decimal.ZeroPad | generators/generators.py:48 | zero padding reaches the width, ends with the original digits and has only `'0'` before them |
| Decimal.ValueOfZeroPad | generators/generators.py:48 | a zero-padded decimal is a digit string that still denotes its number |
| Seqs.Filter | src/processing.py:12 | the records that satisfy the condition, in their original order, with every copy kept and nothing else |
| Seqs.FilterAll | src/processing.py:12 | when every record satisfies the condition, the comprehension returns the list unchanged |
| Sorting.SortByPermutes | src/processing.py:26 | the sort returns a permutation of its input |
| Sorting.SortBySorted | src/processing.py:26 | every earlier key may stand before every later one, ascending or descending as asked |
| Sorting.SortByStable | src/processing.py:26 | for every key, the elements carrying it keep their input order (Python's sort is stable, also with `reverse=True`) |
| Sorting.SortBy | src/processing.py:26 | `sorted(..., key=..., reverse=...)` as a stable insertion sort; its result is stated by Sorting.SortByPermutes, Sorting.SortBySorted and Sorting.SortByStable |
| Sorting.InsertSorted | src/processing.py:26 | inserting into a sorted sequence keeps it sorted |
| Sorting.InsertStable | src/processing.py:26 | an inserted element goes in front of the equal keys that came after it in the input |
| Sorting.WithKeyAll | src/processing.py:26 | when every element carries the same key, the elements with that key are the whole input in order |
| Masks.OnlyDigits | src/masks.py:1-3 | true exactly for a non-empty string of decimal digits |
| Masks.Chunks | src/masks.py:10 | the slices `text[i:i+n]` concatenate back to `text`; every one is full except possibly the last |
| Masks.FormatInBlocks | src/masks.py:6-10 | an empty text stays empty, and a text no longer than one block is returned unchanged |
| Masks.BlocksStep | src/masks.py:10 | a text longer than one block is its first block, a space, and the formatted rest |
| Masks.BlocksSplit | src/masks.py:10 | splitting a block-formatted whitespace-free text gives back exactly its blocks |
| Masks.BlocksUnspaced | src/masks.py:10 | removing the separators from a block-formatted whitespace-free text gives back the text |
| Masks.MaskedRaw | src/masks.py:43-47 | the unspaced mask is as long as the number, keeps the first six and last four characters, and has stars between |
| Masks.SixteenTemplateIsGeneric | src/masks.py:38-50 | for 16 digits the fixed template equals the generic first-six/stars/last-four layout in blocks of four |
| Masks.SixteenTemplate | src/masks.py:38-40 | the fixed 16-digit layout; what it produces is stated by Masks.SixteenTemplateIsGeneric and Masks.SixteenDigitCard |
| Masks.MaskCardDigits | src/masks.py:29-50 | fails with the digit error exactly when the stripped number is not all digits; otherwise fails with the length error exactly when it is outside 13..19; otherwise it is the masked number in blocks of four |
| Masks.MaskCardNumber | src/masks.py:13-50 | on `str(x).strip()`: fails with the digit error exactly when that is not all digits; otherwise fails with the length error exactly when it is outside 13..19; otherwise the generic first-six/stars/last-four layout in blocks of four |
| Masks.CardMaskShape | src/masks.py:13-50 | a valid mask of any argument, with its spaces removed, is as long as `str(x).strip()`, keeps its first six and last four digits and is `*` between |
| Masks.MaskedCardShape | src/masks.py:17-18 | a valid card mask with its spaces removed is as long as the number, keeps its first six and last four digits, and is `*` everywhere between |
| Masks.SixteenDigitCard | src/masks.py:39-40 | a 16-digit number takes the template `XXXX XX** **** XXXX` |
| Masks.ThirteenDigitCard | src/masks.py:42-50 | a 13-digit number ends in a one-digit block: `XXXX XX** *XXX X` |
| Masks.NineteenDigitCard | src/masks.py:42-50 | a 19-digit number ends in a three-digit block: `XXXX XX** **** ***X XXX` |
| Masks.MaskAccountDigits | src/masks.py:66-74 | fails exactly when the stripped number is not all digits; otherwise `**` followed by the last four digits, or by the whole number when it is shorter |
| Masks.MaskAccount | src/masks.py:53-74 | on `str(x).strip()`: fails with the account digit error exactly when that is not all digits; otherwise `**` followed by its last four digits, or all of them when there are fewer |
| Masks.AccountFromInteger | src/masks.py:66-69 | an integer account number is masked exactly when it is natural; a negative one fails the account digit check on its minus sign |
| Masks.MasksIgnoreSurroundingSpace | src/masks.py:29 | both maskers give the same result with or without whitespace around the argument |
| Masks.UnspacedArgument | src/masks.py:29 | a whitespace-free string reaches both maskers' digit and length checks unchanged |
| Masks.CardFromInteger | src/masks.py:29-36 | an integer is masked like its decimal string; a negative one fails the digit check; a natural one fails the length check exactly when it has fewer than 13 or more than 19 digits |
| Masks.IntegerStripped | src/masks.py:29 | for an integer argument, `str(n).strip()` is just `str(n)` |
| Masks.NegativeNotDigits | src/masks.py:29-32 | `str(n)` of a negative integer fails the digit check |
| Masks.NaturalCardLength | src/masks.py:29-36 | `str(n)` of a natural number passes the digit check, and has 13 to 19 digits exactly when `10^12 <= n < 10^19` |
| Masks.IntegerLikeString | src/masks.py:29 | an integer and its decimal string give the same card mask and the same account mask (tests/test_masks.py:61-63 and 96-98 pass the integer form) |
| Masks.DecimalHasNoSpace | src/masks.py:29 | `str(n)` holds no whitespace, so stripping it changes nothing |
| Masks.Render | src/masks.py:29 | `str(x)`: a string is kept, an integer is written in decimal; its effect is stated by Masks.IntegerStripped, Masks.IntegerLikeString and Masks.DecimalHasNoSpace |
| Widget.MaskAccountCard | src/widget.py:21-37 | fewer than two tokens is exactly the format error; a first token `Счет` routes the glued remaining tokens to the account masker; any other line routes its last token to the card masker under the other tokens joined by single spaces |
| Widget.AccountMaskerDecides | src/widget.py:27-31 | on a `Счет` line, an error of the account masker is the result unchanged, and its mask is returned after `Счет` and one space |
| Widget.CardMaskerDecides | src/widget.py:32-37 | on any other line, split into label words and a last token, an error of the card masker on that token is the result unchanged, and its mask is returned after the words joined by single spaces and one more space |
| Widget.CardLine | src/widget.py:32-37 | for any spacing of label words and a card number, the result is the words joined by single spaces and the card mask |
| Widget.CardRoute | src/widget.py:32-37 | a line whose tokens are label words and a number is masked as a card under that label |
| Widget.AccountLine | src/widget.py:27-31 | for any spacing of `Счет` and digit groups, the groups are glued into one account number and masked |
| Processing.FilterByState | src/processing.py:1-12 | exactly the records whose `state` equals the argument, in input order; a record without a state never matches |
| Processing.SortByDate | src/processing.py:15-26 | fails with `KeyError('date')` exactly when some record has no date; otherwise a permutation of the records, ordered by date, newest first when `reverseOrder` holds, equal dates keeping their input order |
| Processing.SameDateKeepsOrder | src/processing.py:26 | records that all carry the same date come back in their input order, in either direction |
| Generators.FilterByCurrency | generators/generators.py:4-17 | exactly the records whose nested currency code equals the argument, in input order; a record missing any level of the key is skipped |
| Generators.TransactionDescriptions | generators/generators.py:20-31 | one item per record, in order: its description, or `""` when it has none |
| Generators.MapRange | generators/generators.py:46 | `range(start, end + 1)` visits `end - start + 1` numbers in increasing order, none when `end < start` |
| Generators.CardNumberGenerator | generators/generators.py:34-51 | item `i` is the card number for `start + i`, and there are `end - start + 1` items |
| Generators.SixteenDigits | generators/generators.py:48 | below `10^16` the padded number is exactly 16 digits |
| Generators.CardNumberIsBlocks | generators/generators.py:48-50 | an item is the 16 padded digits in blocks of four, the same format `format_in_blocks` produces |
| Generators.CardNumber | generators/generators.py:48-50 | one generated item; what it looks like is stated by Generators.CardNumberIsBlocks, Generators.CardNumberShape, Generators.CardNumberRoundTrip and Generators.CardNumbersDistinct |
| Generators.CardNumberShape | generators/generators.py:36 | an item is 19 characters long: spaces at positions 4, 9 and 14 and digits everywhere else |
| Generators.CardNumberRoundTrip | generators/generators.py:47-50 | removing the spaces from an item gives 16 digits that denote its number |
| Generators.CardNumbersDistinct | generators/generators.py:46-51 | different numbers below `10^16` give different items |
| Generators.GeneratedCardsDistinct | generators/generators.py:37 | within the 16-digit range the generator never yields the same item twice |
| Generators.MapRangeDistinct | generators/generators.py:46-51 | mapping a one-to-one function over `range(start, end + 1)` yields no item twice |
| Scenarios.DigitsAccepted | tests/test_masks.py:9-11 | `"123456"` is a digit string |
| Scenarios.NonDigitsRejected | tests/test_masks.py:13-23 | `"abc123"`, `"123-456"` and `""` are not digit strings |
| Scenarios.SixteenInFours | tests/test_masks.py:29-31 | `"1234567890123456"` in blocks of four is `"1234 5678 9012 3456"` |
| Scenarios.SixteenInSixes | tests/test_masks.py:33-35 | in blocks of six it is `"123456 789012 3456"` |
| Scenarios.ShortBlocksUnchanged | tests/test_masks.py:37-43 | `""` and `"123"` are unchanged by block formatting |
| Scenarios.SixteenDigitExample | tests/test_masks.py:49-51 | `"1234567890123456"` is masked by `get_mask_card_number`, strip step included, as `"1234 56** **** 3456"` |
| Scenarios.ThirteenDigitExample | tests/test_masks.py:53-55 | `"1234567890123"` is masked by `get_mask_card_number`, strip step included, as `"1234 56** *012 3"` |
| Scenarios.NineteenDigitExample | tests/test_masks.py:57-59 | `"1234567890123456789"` is masked by `get_mask_card_number`, strip step included, as `"1234 56** **** ***6 789"` |
| Scenarios.LettersInCardRejected | tests/test_masks.py:69-72 | `"1234abcd5678efgh"` fails the card digit check |
| Scenarios.TwelveDigitCardRejected | tests/test_masks.py:74-77 | a 12-digit card fails the length check |
| Scenarios.TwentyDigitCardRejected | tests/test_masks.py:79-82 | a 20-digit card fails the length check |
| Scenarios.LongAccountExample | tests/test_masks.py:88-90 | `"12345678901234567890"` is masked by `get_mask_account`, strip step included, as `"**7890"` |
| Scenarios.ShortAccountExample | tests/test_masks.py:92-94 | `"123"` is masked by `get_mask_account`, strip step included, as `"**123"` |
| Scenarios.LettersInAccountRejected | tests/test_masks.py:104-107 | `"12345abcd67890"` fails the account digit check |
| Scenarios.CardLineExample | tests/test_widget.py:11 | `"Visa Platinum 7000792289606361"` becomes `"Visa Platinum 7000 79** **** 6361"` |
| Scenarios.AccountLineExample | tests/test_widget.py:15 | `"Счет 73654108430135874305"` becomes `"Счет **4305"` |
| Scenarios.SingleWordRejected | tests/test_widget.py:32 | a single word is a format error |
| Scenarios.EmptyLineRejected | tests/test_widget.py:37 | the empty line is a format error |
| Scenarios.FilterExecutedExample | tests/test_processing.py:9-20 | of records 1 to 4 in states EXECUTED, PENDING, EXECUTED, CANCELED, the default filter keeps records 1 and 3 |
| Scenarios.FilterPendingExample | tests/test_processing.py:22-33 | filtering EXECUTED, PENDING, PENDING, CANCELED for `"PENDING"` keeps records 2 and 3 |
| Scenarios.EmptyFilterExample | tests/test_processing.py:35-37 | filtering the empty list gives the empty list |
| Scenarios.EmptySortExample | tests/test_processing.py:85-87 | sorting the empty list succeeds with the empty list |
| Scenarios.NoMatchExample | tests/test_processing.py:39-43 | filtering two EXECUTED records for `"PENDING"` gives nothing |
| Scenarios.MissingStateSkipped | tests/test_processing.py:45-55 | a record without a `state` is dropped, and the two EXECUTED records around it are kept |
| Scenarios.ThreeDatesDescending | src/processing.py:26 | three records with dates `d3 < d1 < d2`, sorted newest first, come out as 2, 1, 3 |
| Scenarios.ThreeDatesAscending | src/processing.py:26 | the same records sorted oldest first come out as 3, 1, 2 |
| Scenarios.SortDescendingExample | tests/test_processing.py:61-71 | the March, April and February records sorted by default come out April, March, February |
| Scenarios.SortAscendingExample | tests/test_processing.py:73-83 | the same records sorted oldest first come out February, March, April |
| Scenarios.SameDatesExample | tests/test_processing.py:89-98 | three records with the same date keep their order 1, 2, 3 |
| Scenarios.SingleItemRange | tests/test_generators.py:117-120 | `card_number_generator(10, 10)` yields only `"0000 0000 0000 0010"` |
| Scenarios.CardItemExample | tests/test_generators_fixtures.py:75 | the item for 10001 is `"0000 0000 0001 0001"` |
| Scenarios.EmptyRange | generators/generators.py:46 | an empty range yields nothing |

## Left out

- `Decimal.ToDecimal`, `Decimal.ZeroFilled`: CPython refuses to convert an integer of more than 4300 digits to a string and raises `ValueError` instead. The model renders every integer. For such a number:
  - `get_mask_card_number` raises at src/masks.py:29. `Masks.MaskCardNumber` returns `Err(CardBadLength)` for a natural number and `Err(CardNotDigits)` for a negative one.
  - `get_mask_account` raises at src/masks.py:66. `Masks.MaskAccount` returns `Ok("**" + the last four digits)` for a natural number and `Err(AccountNotDigits)` for a negative one.
  - `card_number_generator` raises at generators/generators.py:48, where `Generators.CardNumber` still yields a formatted item.
- `Masks.OnlyDigits`: Python's `str.isdigit()` also accepts non-ASCII digits such as `'²'` or `'٣'`. The model accepts only `'0'..'9'`, because the Unicode digit tables are not modelled.
- Messages: each `ValueError` and `KeyError` is modelled by its kind (`Results.Error`). The message texts (src/masks.py:32, 36 and 69, src/widget.py:24) are not kept, and no exception object is built.
- Laziness: the generators are modelled by the finite list of items they yield. Interleaving with the consumer and partial consumption are not modelled.
- `Transactions.Transaction` holds only the keys the core reads (`state`, `date`, `operationAmount.currency.code`, `description`), plus an `id`. The keys the core never reads, such as `operationAmount.amount` and `operationAmount.currency.name`, are left out; `id` stands for them.
  - A value of an unexpected type is not modelled, such as a non-dict `operationAmount` (on which `filter_by_currency` would raise `AttributeError`) or a non-string `date`.
  - A present `None` is treated as a missing key. Python differs in three places:
    - `filter_by_currency` raises `AttributeError` when `operationAmount` or `currency` is `None` (generators/generators.py:16). The model skips the record.
    - `transaction_descriptions` yields `None` for a `None` description (generators/generators.py:31). The model yields `""`.
    - `sort_by_date` with a `None` date raises `TypeError` once two or more records are compared, and succeeds on a single record (src/processing.py:26). The model returns `Err(MissingKey("date"))` in both cases.
- `sort_by_date` sorts the real `date` strings, but its keyword is named `reverse_order`, while tests/test_processing.py:80 and main.py:115 call it with `is_reverse_order=`. That call would raise `TypeError` in Python. Keyword argument passing is not modelled. `Scenarios.SortAscendingExample` states that test with the direction it evidently asks for, `reverseOrder` false.
- `get_date` is imported by tests/test_widget.py, and `random_card_number_generator` by tests/test_generators.py. Neither is defined in src/widget.py or generators/generators.py, so neither is part of this model. The date-formatting operation also has no definition in the core's files.
- `src/decorators.py`, `src/external_api.py`, `src/utils.py` and `main.py` are not part of this model. They do logging, HTTP currency conversion, JSON file loading and console interaction, all of which are I/O.
- Python's `<=` on strings compares code points. The model compares Dafny characters (Unicode scalar values), which gives the same order.
- `format_in_blocks` is modelled with `blockSize >= 1`. With 0 and a non-empty text, Python's `range` raises `ValueError`; the empty text comes back as `""` through the early return at src/masks.py:8-9. With a negative size, the range is empty, so a non-empty text comes back as `""`. No caller in the repository passes a size below 1.

=== FILE: decimal.dfy ===
/** Decimal rendering of integers: Python's `str(n)` and the zero-padded
    format `f"{n:0{width}d}"`, with the value of a digit string as partner. */
module Decimal {
  import opened Text

  function Pow10(k: nat): (r: nat)
    ensures r >= 1
  {
    if k == 0 then 1 else 10 * Pow10(k - 1)
  }

  function DigitChar(d: nat): (c: char)
    requires d < 10
    ensures IsDigit(c)
  {
    (48 + d) as char
  }

  function DigitValue(c: char): (d: nat)
    requires IsDigit(c)
    ensures d < 10 && DigitChar(d) == c
  {
    (c as int) - 48
  }

  /** `str(n)` for a natural number: no sign, no leading zero unless `n == 0`. */
  function NatToDecimal(n: nat): (r: string)
    ensures |r| >= 1 && AllDigits(r)
    ensures r[0] == '0' ==> n == 0
  {
    if n < 10 then [DigitChar(n)] else NatToDecimal(n / 10) + [DigitChar(n % 10)]
  }

  /** `str(n)` for any integer: a minus sign exactly when `n` is negative,
      then the digits of `|n|` without a leading zero, which `int` reads back
      as `n`. */
  function ToDecimal(n: int): (r: string)
    ensures |r| >= 1 && (r[0] == '-' <==> n < 0)
    ensures n >= 0 ==> AllDigits(r) && Value(r) == n && (r[0] == '0' ==> n == 0)
    ensures n < 0 ==> |r| >= 2 && AllDigits(r[1..]) && Value(r[1..]) == -n && r[1] != '0'
  {
    ValueOfDecimal(if n < 0 then -n else n);
    if n < 0 then "-" + NatToDecimal(-n) else NatToDecimal(n)
  }

  /** The number a digit string denotes (Python's `int(s)`). */
  function Value(s: string): nat
    requires AllDigits(s)
  {
    if |s| == 0 then 0 else 10 * Value(s[..|s| - 1]) + DigitValue(s[|s| - 1])
  }

  /** `s` left-padded with `'0'` up to `width` characters. */
  function ZeroPad(s: string, width: nat): (r: string)
    ensures |r| == if |s| >= width then |s| else width
    ensures r[|r| - |s|..] == s
    ensures forall i :: 0 <= i < |r| - |s| ==> r[i] == '0'
  {
    if |s| >= width then s else Repeat('0', width - |s|) + s
  }

  /** Padding a digit string with zeros leaves a digit string. */
  lemma ZeroPadDigits(s: string, width: nat)
    requires AllDigits(s)
    ensures AllDigits(ZeroPad(s, width))
  {
    var r := ZeroPad(s, width);
    var z := |r| - |s|;
    forall i | 0 <= i < |r| ensures IsDigit(r[i]) {
      if i >= z {
        assert r[i] == r[z..][i - z];
      }
    }
  }

  /** `f"{n:0{width}d}"`: the sign comes first and counts toward the width. */
  function ZeroFilled(n: int, width: nat): (r: string)
    ensures |r| >= width
    ensures n >= 0 ==> r == ZeroPad(NatToDecimal(n), width)
    ensures n < 0 ==> |r| >= 1 && r[0] == '-'
  {
    if n < 0 then "-" + ZeroPad(NatToDecimal(-n), if width == 0 then 0 else width - 1)
    else ZeroPad(NatToDecimal(n), width)
  }

  /** `int(str(n)) == n`. */
  lemma {:induction false} ValueOfDecimal(n: nat)
    ensures Value(NatToDecimal(n)) == n
  {
    if n >= 10 {
      var p := NatToDecimal(n / 10);
      var s := p + [DigitChar(n % 10)];
      assert s[..|s| - 1] == p;
      ValueOfDecimal(n / 10);
    }
  }

  /** `str(int(s)) == s` for a digit string without a leading zero. */
  lemma {:induction false} DecimalOfValue(s: string)
    requires |s| >= 1 && AllDigits(s)
    requires s[0] == '0' ==> |s| == 1
    ensures NatToDecimal(Value(s)) == s
    decreases |s|
  {
    var init, c := s[..|s| - 1], s[|s| - 1];
    if |s| == 1 {
      assert init == [];
      assert s == [c];
    } else {
      assert init[0] == s[0];
      DecimalOfValue(init);
      var v := Value(init);
      assert NatToDecimal(v)[0] != '0';
      var n := Value(s);
      assert n == 10 * v + DigitValue(c);
      assert n / 10 == v && n % 10 == DigitValue(c);
      assert s == init + [c];
    }
  }

  /** `str(n)` has at most `k` digits exactly when `n < 10^k`. */
  lemma {:induction false} DecimalLength(n: nat, k: nat)
    requires k >= 1
    ensures |NatToDecimal(n)| <= k <==> n < Pow10(k)
  {
    if n >= 10 {
      if k == 1 {
        assert Pow10(1) == 10;
      } else {
        DecimalLength(n / 10, k - 1);
      }
    } else {
      PowAtLeastTen(k);
    }
  }

  lemma {:induction false} PowAtLeastTen(k: nat)
    requires k >= 1
    ensures Pow10(k) >= 10
  {
    if k > 1 {
      PowAtLeastTen(k - 1);
    }
  }

  lemma {:induction false} ValueOfZeros(z: string)
    requires forall i :: 0 <= i < |z| ==> z[i] == '0'
    ensures AllDigits(z) && Value(z) == 0
  {
    if |z| > 0 {
      ValueOfZeros(z[..|z| - 1]);
    }
  }

  /** Leading zeros do not change the value of a digit string. */
  lemma {:induction false} ValueLeadingZeros(z: string, s: string)
    requires forall i :: 0 <= i < |z| ==> z[i] == '0'
    requires AllDigits(s)
    ensures AllDigits(z + s) && Value(z + s) == Value(s)
  {
    ValueOfZeros(z);
    if |s| == 0 {
      assert z + s == z;
    } else {
      var t := z + s;
      assert t[..|t| - 1] == z + s[..|s| - 1];
      assert t[|t| - 1] == s[|s| - 1];
      ValueLeadingZeros(z, s[..|s| - 1]);
    }
  }

  /** Zero padding keeps the value: `int(f"{n:0{w}d}") == n` for `n >= 0`. */
  lemma ValueOfZeroPad(n: nat, width: nat)
    ensures AllDigits(ZeroPad(NatToDecimal(n), width))
    ensures Value(ZeroPad(NatToDecimal(n), width)) == n
  {
    var s := NatToDecimal(n);
    var r := ZeroPad(s, width);
    ValueOfDecimal(n);
    if |s| < width {
      ValueLeadingZeros(Repeat('0', width - |s|), s);
    }
  }
}

=== FILE: generators.dfy ===
/** `filter_by_currency`, `transaction_descriptions` and
    `card_number_generator` (generators/generators.py); each generator is
    modelled by the sequence of the items it yields. */
module Generators {
  import opened Results
  import opened Text
  import opened Seqs
  import opened Transactions
  import Decimal
  import Masks

  /** `t.get("operationAmount", {}).get("currency", {}).get("code")`. */
  function CurrencyCode(t: Transaction): Option<string> {
    match t.operationAmount
    case None => None
    case Some(a) =>
      match a.currency
      case None => None
      case Some(c) => c.code
  }

  predicate InCurrency(t: Transaction, code: string) {
    CurrencyCode(t) == Some(code)
  }

  /** `filter_by_currency`: exactly the records in the given currency, in
      order; a record missing any level of the nested key is skipped. */
  function FilterByCurrency(ts: seq<Transaction>, code: string): (r: seq<Transaction>)
    ensures forall i :: 0 <= i < |r| ==> InCurrency(r[i], code)
    ensures IsSubseq(r, ts)
    ensures forall t :: multiset(r)[t] == if InCurrency(t, code) then multiset(ts)[t] else 0
  {
    Filter(ts, t => InCurrency(t, code))
  }

  /** `transaction_descriptions`: one description per record, `""` when the
      record has none. */
  function TransactionDescriptions(ts: seq<Transaction>): (r: seq<string>)
    ensures |r| == |ts|
    ensures forall i :: 0 <= i < |ts| ==> r[i] == ts[i].description.GetOr("")
  {
    if |ts| == 0 then [] else [ts[0].description.GetOr("")] + TransactionDescriptions(ts[1..])
  }

  /** The item yielded for `number`: `f"{number:016d}"` cut after the 4th,
      8th and 12th characters and rejoined with spaces. */
  function CardNumber(number: int): string {
    var s := Decimal.ZeroFilled(number, 16);
    s[..4] + " " + s[4..8] + " " + s[8..12] + " " + s[12..]
  }

  /** `f(n)` for each `n` of `range(start, end + 1)`, in order. */
  function MapRange(start: int, end: int, f: int -> string): (r: seq<string>)
    ensures |r| == if start <= end then end - start + 1 else 0
    ensures forall i :: 0 <= i < |r| ==> r[i] == f(start + i)
    decreases end - start
  {
    if start > end then []
    else
      var rest := MapRange(start + 1, end, f);
      var r := [f(start)] + rest;
      assert forall i :: 1 <= i < |r| ==> r[i] == rest[i - 1];
      r
  }

  /** `card_number_generator(start, end)`: one item per number of
      `range(start, end + 1)`, in order. */
  function CardNumberGenerator(start: int, end: int): (r: seq<string>)
    ensures |r| == if start <= end then end - start + 1 else 0
    ensures forall i :: 0 <= i < |r| ==> r[i] == CardNumber(start + i)
  {
    MapRange(start, end, CardNumber)
  }

  /** One past the largest number whose item still has 16 digits. */
  const CardNumberLimit := Decimal.Pow10(16)

  /** The 16 digits of `number`, zero-padded, for `0 <= number < 10^16`. */
  lemma SixteenDigits(number: int)
    requires 0 <= number < CardNumberLimit
    ensures var s := Decimal.ZeroFilled(number, 16); |s| == 16 && AllDigits(s)
  {
    Decimal.DecimalLength(number, 16);
    Decimal.ZeroPadDigits(Decimal.NatToDecimal(number), 16);
  }

  /** An item is its 16 digits in the block format of `format_in_blocks`. */
  lemma CardNumberIsBlocks(number: int)
    requires 0 <= number < CardNumberLimit
    ensures CardNumber(number) == Masks.FormatInBlocks(Decimal.ZeroFilled(number, 16), 4)
  {
    SixteenDigits(number);
    Masks.FourBlocks(Decimal.ZeroFilled(number, 16));
  }

  /** Each item is 19 characters long with spaces at positions 4, 9 and 14
      and digits everywhere else. */
  lemma CardNumberShape(number: int)
    requires 0 <= number < CardNumberLimit
    ensures var c := CardNumber(number);
      && |c| == 19
      && c[4] == ' ' && c[9] == ' ' && c[14] == ' '
      && forall i :: 0 <= i < 19 && i != 4 && i != 9 && i != 14 ==> IsDigit(c[i])
  {
    SixteenDigits(number);
    BlocksShape(Decimal.ZeroFilled(number, 16));
  }

  /** The layout of an item, for any 16 digits. */
  lemma BlocksShape(s: string)
    requires |s| == 16 && AllDigits(s)
    ensures var c := s[..4] + " " + s[4..8] + " " + s[8..12] + " " + s[12..];
      && |c| == 19
      && c[4] == ' ' && c[9] == ' ' && c[14] == ' '
      && forall i :: 0 <= i < 19 && i != 4 && i != 9 && i != 14 ==> IsDigit(c[i])
  {
    var c := s[..4] + " " + s[4..8] + " " + s[8..12] + " " + s[12..];
    forall i | 0 <= i < 19 && i != 4 && i != 9 && i != 14
      ensures IsDigit(c[i])
    {
      if i < 4 {
        assert c[i] == s[i];
      } else if i < 9 {
        assert c[i] == s[i - 1];
      } else if i < 14 {
        assert c[i] == s[i - 2];
      } else {
        assert c[i] == s[i - 3];
      }
    }
  }

  /** Round trip: removing the spaces from an item gives the zero-padded
      16-digit decimal of its number, whose value is the number. */
  lemma CardNumberRoundTrip(number: int)
    requires 0 <= number < CardNumberLimit
    ensures var d := RemoveWhitespace(CardNumber(number));
      && d == Decimal.ZeroPad(Decimal.NatToDecimal(number), 16)
      && |d| == 16 && AllDigits(d)
      && Decimal.Value(d) == number
  {
    var s := Decimal.ZeroFilled(number, 16);
    SixteenDigits(number);
    CardNumberIsBlocks(number);
    DigitsHaveNoSpace(s);
    Masks.BlocksUnspaced(s, 4);
    Decimal.ValueOfZeroPad(number, 16);
  }

  /** Different numbers give different items. */
  lemma CardNumbersDistinct(a: int, b: int)
    requires 0 <= a < CardNumberLimit && 0 <= b < CardNumberLimit
    requires a != b
    ensures CardNumber(a) != CardNumber(b)
  {
    CardNumberRoundTrip(a);
    CardNumberRoundTrip(b);
  }

  /** Within the 16-digit range the generator never yields an item twice. */
  lemma GeneratedCardsDistinct(start: int, end: int)
    requires 0 <= start && end < CardNumberLimit
    ensures var r := CardNumberGenerator(start, end);
      forall i, j :: 0 <= i < j < |r| ==> r[i] != r[j]
  {
    forall a, b | start <= a <= end && start <= b <= end && a != b
      ensures CardNumber(a) != CardNumber(b)
    {
      CardNumbersDistinct(a, b);
    }
    MapRangeDistinct(start, end, CardNumber);
  }

  /** Mapping a range through a function that is one-to-one on it yields no
      item twice. */
  lemma MapRangeDistinct(start: int, end: int, f: int -> string)
    requires forall a, b :: start <= a <= end && start <= b <= end && a != b ==> f(a) != f(b)
    ensures var r := MapRange(start, end, f);
      forall i, j :: 0 <= i < j < |r| ==> r[i] != r[j]
  {
    var r := MapRange(start, end, f);
    forall i, j | 0 <= i < j < |r|
      ensures r[i] != r[j]
    {
      assert r[i] == f(start + i) && r[j] == f(start + j);
    }
  }
}

=== FILE: masks.dfy ===
/** Card and account number masking (src/masks.py). */
module Masks {
  import opened Results
  import opened Text
  import Decimal

  /** The `int | str` argument of the maskers. */
  datatype NumberInput = FromString(text: string) | FromInt(number: int)

  /** Python's `str(x)` of the argument. */
  function Render(x: NumberInput): string {
    match x
    case FromString(s) => s
    case FromInt(n) => Decimal.ToDecimal(n)
  }

  /** `only_digits`: `str.isdigit()`, false on the empty string. */
  function OnlyDigits(s: string): (r: bool)
    ensures r <==> |s| > 0 && AllDigits(s)
  {
    if |s| == 0 then false
    else if |s| == 1 then IsDigit(s[0])
    else IsDigit(s[0]) && OnlyDigits(s[1..])
  }

  // --------------------------------------------------------- format_in_blocks

  /** `[text[i:i + n] for i in range(0, len(text), n)]`. */
  function Chunks(text: string, n: nat): (r: seq<string>)
    requires n >= 1
    ensures Concat(r) == text
    ensures |r| == 0 <==> |text| == 0
    ensures forall i :: 0 <= i < |r| ==> 1 <= |r[i]| <= n
    ensures forall i :: 0 <= i < |r| - 1 ==> |r[i]| == n
    decreases |text|
  {
    if |text| == 0 then []
    else if |text| <= n then [text]
    else
      var rest := Chunks(text[n..], n);
      assert ([text[..n]] + rest)[1..] == rest;
      assert text == text[..n] + text[n..];
      [text[..n]] + rest
  }

  /** `format_in_blocks`: the chunks of `text` joined by single spaces. */
  function FormatInBlocks(text: string, blockSize: nat): (r: string)
    requires blockSize >= 1
    ensures |text| == 0 ==> r == ""
    ensures |text| <= blockSize ==> r == text
  {
    if |text| == 0 then text else Join(" ", Chunks(text, blockSize))
  }

  /** A text longer than one block is its first block, a space, and the
      formatted remainder. */
  lemma BlocksStep(text: string, n: nat)
    requires n >= 1 && |text| > n
    ensures FormatInBlocks(text, n) == text[..n] + " " + FormatInBlocks(text[n..], n)
  {
    var cs := Chunks(text, n);
    assert cs[1..] == Chunks(text[n..], n);
  }

  /** Splitting a block-formatted text on whitespace recovers its chunks, so
      the separators stand exactly between consecutive chunks. */
  lemma {:induction false} BlocksSplit(text: string, n: nat)
    requires n >= 1 && NoSpace(text)
    ensures Split(FormatInBlocks(text, n)) == Chunks(text, n)
    decreases |text|
  {
    if |text| == 0 {
    } else if |text| <= n {
      SplitToken(text, "");
      assert text + "" == text;
    } else {
      SplitFirstBlock(text, n);
      assert NoSpace(text[n..]);
      BlocksSplit(text[n..], n);
    }
  }

  /** The first block of a block-formatted text is its first token. */
  lemma SplitFirstBlock(text: string, n: nat)
    requires n >= 1 && |text| > n && NoSpace(text)
    ensures Split(FormatInBlocks(text, n)) == [text[..n]] + Split(FormatInBlocks(text[n..], n))
  {
    var head, rest := text[..n], FormatInBlocks(text[n..], n);
    assert NoSpace(head);
    BlocksStep(text, n);
    assert head + " " + rest == head + (" " + rest);
    SplitToken(head, " " + rest);
    SplitSkipsSpace(" ", rest);
  }

  /** Removing the separators from a block-formatted string gives back the
      string, when the string itself holds no whitespace. */
  lemma {:induction false} BlocksUnspaced(text: string, n: nat)
    requires n >= 1 && NoSpace(text)
    ensures RemoveWhitespace(FormatInBlocks(text, n)) == text
    decreases |text|
  {
    if |text| <= n {
      RemoveWhitespaceNoSpace(text);
    } else {
      UnspaceFirstBlock(text, n);
      assert NoSpace(text[n..]);
      BlocksUnspaced(text[n..], n);
      assert text == text[..n] + text[n..];
    }
  }

  /** Removing whitespace drops the space after the first block. */
  lemma UnspaceFirstBlock(text: string, n: nat)
    requires n >= 1 && |text| > n && NoSpace(text)
    ensures RemoveWhitespace(FormatInBlocks(text, n)) == text[..n] + RemoveWhitespace(FormatInBlocks(text[n..], n))
  {
    assert NoSpace(text[..n]);
    BlocksStep(text, n);
    assert AllSpace(" ");
    RemoveWhitespaceSpaced(text[..n], " ", FormatInBlocks(text[n..], n));
  }

  // ----------------------------------------------------- get_mask_card_number

  /** The fewest and the most digits a card number may have. */
  const MinCardLength := 13
  const MaxCardLength := 19

  /** `first6 + "*" * (L - 10) + last4`, the unspaced masked card number. */
  function MaskedRaw(s: string): (r: string)
    requires |s| >= 10
    ensures |r| == |s|
    ensures r[..6] == s[..6] && r[|s| - 4..] == s[|s| - 4..]
    ensures forall i :: 6 <= i < |s| - 4 ==> r[i] == '*'
  {
    s[..6] + Repeat('*', |s| - 10) + s[|s| - 4..]
  }

  /** `get_mask_card_number`'s fixed layout for a 16-digit card number. */
  function SixteenTemplate(s: string): string
    requires |s| == 16
  {
    s[..4] + " " + s[4..6] + "** **** " + s[12..]
  }

  /** Thirteen to sixteen characters form three blocks of four and a rest. */
  lemma FourBlocks(t: string)
    requires 12 < |t| <= 16
    ensures FormatInBlocks(t, 4) == t[..4] + " " + t[4..8] + " " + t[8..12] + " " + t[12..]
  {
    assert FormatInBlocks(t[12..], 4) == t[12..];
    assert FormatInBlocks(t[8..], 4) == t[8..12] + " " + t[12..] by {
      BlocksStep(t[8..], 4);
      assert t[8..][..4] == t[8..12] && t[8..][4..] == t[12..];
    }
    assert FormatInBlocks(t[4..], 4) == t[4..8] + " " + t[8..12] + " " + t[12..] by {
      BlocksStep(t[4..], 4);
      assert t[4..][..4] == t[4..8] && t[4..][4..] == t[8..];
    }
    BlocksStep(t, 4);
  }

  /** Seventeen to twenty characters form four blocks of four and a rest. */
  lemma FiveBlocks(t: string)
    requires 16 < |t| <= 20
    ensures FormatInBlocks(t, 4) == t[..4] + " " + t[4..8] + " " + t[8..12] + " " + t[12..16] + " " + t[16..]
  {
    FourBlocks(t[4..]);
    assert t[4..][..4] == t[4..8] && t[4..][4..8] == t[8..12];
    assert t[4..][8..12] == t[12..16] && t[4..][12..] == t[16..];
    BlocksStep(t, 4);
  }

  /** The 16-digit template is exactly what the generic
      first6/stars/last4/blocks path produces for a 16-digit number. */
  lemma SixteenTemplateIsGeneric(s: string)
    requires |s| == 16
    ensures SixteenTemplate(s) == FormatInBlocks(MaskedRaw(s), 4)
  {
    FourBlocks(MaskedRaw(s));
    SixteenRawBlocks(s);
    RegroupSixteen(s[..4], s[4..6], s[12..]);
  }

  /** The four blocks of the unspaced mask of a 16-digit number. */
  lemma SixteenRawBlocks(s: string)
    requires |s| == 16
    ensures var raw := MaskedRaw(s);
      && raw[..4] == s[..4] && raw[4..8] == s[4..6] + "**"
      && raw[8..12] == "****" && raw[12..] == s[12..]
  {
    var raw := MaskedRaw(s);
    assert raw[4..8] == s[4..6] + "**";
    assert raw[8..12] == "****";
  }

  /** Regrouping the literal pieces of the 16-digit layout. */
  lemma RegroupSixteen(a: string, b: string, d: string)
    ensures a + " " + (b + "**") + " " + "****" + " " + d == a + " " + b + "** **** " + d
  {
    assert "**" + " " + "****" + " " == "** **** ";
  }

  /** `get_mask_card_number` on the stripped string `s`: digits are checked
      before the length; a valid number is shown as its first six and last
      four digits with stars between, in blocks of four. */
  function MaskCardDigits(s: string): (r: Result<string>)
    ensures r == Err(CardNotDigits) <==> !OnlyDigits(s)
    ensures r == Err(CardBadLength) <==> OnlyDigits(s) && !(MinCardLength <= |s| <= MaxCardLength)
    ensures r.Ok? <==> OnlyDigits(s) && MinCardLength <= |s| <= MaxCardLength
    ensures r.Ok? ==> r.value == FormatInBlocks(MaskedRaw(s), 4)
  {
    if !OnlyDigits(s) then Err(CardNotDigits)
    else if |s| < MinCardLength || |s| > MaxCardLength then Err(CardBadLength)
    else if |s| == 16 then
      SixteenTemplateIsGeneric(s);
      Ok(SixteenTemplate(s))
    else Ok(FormatInBlocks(MaskedRaw(s), 4))
  }

  /** `get_mask_card_number`: the argument is rendered with `str` and
      stripped before it is checked. The digit check comes first, then the
      length check; a valid number is shown as its first six and last four
      digits with stars between, in blocks of four. */
  function MaskCardNumber(x: NumberInput): (r: Result<string>)
    ensures var s := Strip(Render(x));
      && (r == Err(CardNotDigits) <==> !OnlyDigits(s))
      && (r == Err(CardBadLength) <==> OnlyDigits(s) && !(MinCardLength <= |s| <= MaxCardLength))
      && (r.Ok? <==> OnlyDigits(s) && MinCardLength <= |s| <= MaxCardLength)
      && (r.Ok? ==> r.value == FormatInBlocks(MaskedRaw(s), 4))
  {
    MaskCardDigits(Strip(Render(x)))
  }

  /** What a masked card number reveals: with its spaces removed it is as
      long as the number, begins with the first six digits, ends with the
      last four, and hides the rest behind `*`. */
  lemma MaskedCardShape(s: string)
    requires MaskCardDigits(s).Ok?
    ensures var u := RemoveWhitespace(MaskCardDigits(s).value);
      && |u| == |s|
      && u[..6] == s[..6]
      && u[|s| - 4..] == s[|s| - 4..]
      && (forall i :: 6 <= i < |s| - 4 ==> u[i] == '*')
  {
    BlocksUnspaced(MaskedRaw(s), 4);
  }

  /** The same for the whole operation: a valid mask of the argument, with
      its spaces removed, is as long as the stripped number, keeps its first
      six and last four digits, and is `*` everywhere between. */
  lemma CardMaskShape(x: NumberInput)
    ensures var s := Strip(Render(x));
      var r := MaskCardNumber(x);
      r.Ok? ==>
        var u := RemoveWhitespace(r.value);
        && |u| == |s|
        && u[..6] == s[..6]
        && u[|s| - 4..] == s[|s| - 4..]
        && (forall i :: 6 <= i < |s| - 4 ==> u[i] == '*')
  {
    if MaskCardNumber(x).Ok? {
      MaskedCardShape(Strip(Render(x)));
    }
  }

  /** A 16-digit card number uses the fixed template. */
  lemma SixteenDigitCard(s: string)
    requires |s| == 16 && OnlyDigits(s)
    ensures MaskCardDigits(s) == Ok(SixteenTemplate(s))
  {
    SixteenTemplateIsGeneric(s);
  }

  /** A 13-digit card number ends in a partial block of one digit. */
  lemma ThirteenDigitCard(s: string)
    requires |s| == 13 && OnlyDigits(s)
    ensures MaskCardDigits(s) == Ok(s[..4] + " " + s[4..6] + "** *" + s[9..12] + " " + s[12..])
  {
    var raw := MaskedRaw(s);
    FourBlocks(raw);
    ThirteenRawBlocks(s);
    RegroupThirteen(s[..4], s[4..6], s[9..12], s[12..]);
  }

  /** Regrouping the literal pieces of the 13-digit layout. */
  lemma RegroupThirteen(a: string, b: string, c: string, d: string)
    ensures a + " " + (b + "**") + " " + ("*" + c) + " " + d == a + " " + b + "** *" + c + " " + d
  {
    assert "**" + " " + "*" == "** *";
  }

  /** The four pieces of the unspaced mask of a 13-digit number. */
  lemma ThirteenRawBlocks(s: string)
    requires |s| == 13
    ensures var raw := MaskedRaw(s);
      && raw[..4] == s[..4] && raw[4..8] == s[4..6] + "**"
      && raw[8..12] == "*" + s[9..12] && raw[12..] == s[12..]
  {
    var raw := MaskedRaw(s);
    assert raw[4..8] == s[4..6] + "**";
    assert raw[8..12] == "*" + s[9..12] by {
      assert raw[9..12] == s[9..12];
    }
  }

  /** A 19-digit card number ends in a partial block of three digits. */
  lemma NineteenDigitCard(s: string)
    requires |s| == 19 && OnlyDigits(s)
    ensures MaskCardDigits(s) == Ok(s[..4] + " " + s[4..6] + "** **** ***" + s[15..16] + " " + s[16..])
  {
    var raw := MaskedRaw(s);
    FiveBlocks(raw);
    NineteenRawBlocks(s);
    RegroupNineteen(s[..4], s[4..6], s[15..16], s[16..]);
  }

  /** Regrouping the literal pieces of the 19-digit layout. */
  lemma RegroupNineteen(a: string, b: string, c: string, d: string)
    ensures a + " " + (b + "**") + " " + "****" + " " + ("***" + c) + " " + d
         == a + " " + b + "** **** ***" + c + " " + d
  {
    assert "**" + " " + "****" + " " + "***" == "** **** ***";
  }

  lemma NineteenRawBlocks(s: string)
    requires |s| == 19
    ensures var raw := MaskedRaw(s);
      && raw[..4] == s[..4] && raw[4..8] == s[4..6] + "**" && raw[8..12] == "****"
      && raw[12..16] == "***" + s[15..16] && raw[16..] == s[16..]
  {
    var raw := MaskedRaw(s);
    assert raw[4..8] == s[4..6] + "**";
    assert raw[12..16] == "***" + s[15..16] by {
      assert raw[15] == s[15];
    }
  }

  // --------------------------------------------------------- get_mask_account

  /** The digits an account mask keeps visible. */
  const AccountTail := 4

  /** `get_mask_account` on the stripped string `s`: `"**"` followed by the
      last four digits, or by the whole number when it is shorter. */
  function MaskAccountDigits(s: string): (r: Result<string>)
    ensures r.Err? <==> !OnlyDigits(s)
    ensures r.Err? ==> r.error == AccountNotDigits
    ensures r.Ok? ==> |r.value| == 2 + (if |s| < AccountTail then |s| else AccountTail)
    ensures r.Ok? ==> r.value[..2] == "**" && r.value[2..] == s[|s| - (|r.value| - 2)..]
  {
    if !OnlyDigits(s) then Err(AccountNotDigits)
    else
      var tail := if |s| >= AccountTail then s[|s| - AccountTail..] else s;
      Ok("**" + tail)
  }

  /** `get_mask_account`: the argument is rendered with `str` and stripped
      before it is checked; a valid mask is `"**"` and the last four digits
      of the stripped number, or all of them when there are fewer. */
  function MaskAccount(x: NumberInput): (r: Result<string>)
    ensures var s := Strip(Render(x));
      && (r.Err? <==> !OnlyDigits(s))
      && (r.Err? ==> r.error == AccountNotDigits)
      && (r.Ok? ==> |r.value| == 2 + (if |s| < AccountTail then |s| else AccountTail))
      && (r.Ok? ==> r.value[..2] == "**" && r.value[2..] == s[|s| - (|r.value| - 2)..])
  {
    MaskAccountDigits(Strip(Render(x)))
  }

  // ------------------------------------------------ argument normalisation

  /** A whitespace-free string reaches both maskers' checks as given. */
  lemma UnspacedArgument(s: string)
    requires NoSpace(s)
    ensures MaskCardNumber(FromString(s)) == MaskCardDigits(s)
    ensures MaskAccount(FromString(s)) == MaskAccountDigits(s)
  {
    StripNoSpace(s);
    assert Strip(Render(FromString(s))) == s;
  }

  /** Both maskers ignore whitespace around their argument. */
  lemma MasksIgnoreSurroundingSpace(a: string, s: string, b: string)
    requires AllSpace(a) && AllSpace(b)
    ensures MaskCardNumber(FromString(a + s + b)) == MaskCardNumber(FromString(s))
    ensures MaskAccount(FromString(a + s + b)) == MaskAccount(FromString(s))
  {
    StripSurrounding(a, s, b);
  }

  /** An integer argument behaves like its decimal string; a negative one is
      rejected as not all digits, and a natural one by its digit count. */
  lemma CardFromInteger(n: int)
    ensures MaskCardNumber(FromInt(n)) == MaskCardDigits(Decimal.ToDecimal(n))
    ensures n < 0 ==> MaskCardNumber(FromInt(n)) == Err(CardNotDigits)
    ensures n >= 0 ==> (MaskCardNumber(FromInt(n)) == Err(CardBadLength) <==>
                          n < Decimal.Pow10(MinCardLength - 1) || n >= Decimal.Pow10(MaxCardLength))
  {
    IntegerStripped(n);
    if n < 0 {
      NegativeNotDigits(n);
    } else {
      NaturalCardLength(n);
    }
  }

  /** Stripping `str(n)` changes nothing. */
  lemma IntegerStripped(n: int)
    ensures Strip(Render(FromInt(n))) == Decimal.ToDecimal(n)
  {
    DecimalHasNoSpace(n);
    StripNoSpace(Decimal.ToDecimal(n));
  }

  /** The minus sign of a negative number is not a digit. */
  lemma NegativeNotDigits(n: int)
    requires n < 0
    ensures !OnlyDigits(Decimal.ToDecimal(n))
  {
    assert !IsDigit(Decimal.ToDecimal(n)[0]);
  }

  /** A natural number has 13 to 19 digits exactly when it lies in
      `[10^12, 10^19)`. */
  lemma NaturalCardLength(n: int)
    requires n >= 0
    ensures OnlyDigits(Decimal.ToDecimal(n))
    ensures MinCardLength <= |Decimal.ToDecimal(n)| <= MaxCardLength <==>
              Decimal.Pow10(MinCardLength - 1) <= n < Decimal.Pow10(MaxCardLength)
  {
    Decimal.DecimalLength(n, MinCardLength - 1);
    Decimal.DecimalLength(n, MaxCardLength);
  }

  /** An integer account number is masked exactly when it is natural: a
      negative one fails the digit check on its minus sign. */
  lemma AccountFromInteger(n: int)
    ensures MaskAccount(FromInt(n)).Ok? <==> n >= 0
    ensures n < 0 ==> MaskAccount(FromInt(n)) == Err(AccountNotDigits)
  {
    IntegerStripped(n);
    if n < 0 {
      NegativeNotDigits(n);
    } else {
      NaturalCardLength(n);
    }
  }

  /** An integer argument is masked exactly like the digit string that
      denotes it, by both maskers. */
  lemma IntegerLikeString(s: string)
    requires |s| >= 1 && AllDigits(s) && (s[0] == '0' ==> |s| == 1)
    ensures MaskCardNumber(FromInt(Decimal.Value(s))) == MaskCardNumber(FromString(s))
    ensures MaskAccount(FromInt(Decimal.Value(s))) == MaskAccount(FromString(s))
  {
    Decimal.DecimalOfValue(s);
  }

  /** `str(n)` holds no whitespace, so stripping it changes nothing. */
  lemma DecimalHasNoSpace(n: int)
    ensures NoSpace(Decimal.ToDecimal(n))
  {
    var s := Decimal.ToDecimal(n);
    if n < 0 {
      var d := Decimal.NatToDecimal(-n);
      assert s == "-" + d;
      forall i | 0 <= i < |s| ensures !IsSpace(s[i]) {
        if i > 0 { assert s[i] == d[i - 1]; assert IsDigit(d[i - 1]); }
      }
    }
  }
}

=== FILE: processing.dfy ===
/** `filter_by_state` and `sort_by_date` (src/processing.py). */
module Processing {
  import opened Results
  import opened Seqs
  import opened Sorting
  import opened Transactions

  /** The default `state` argument of `filter_by_state`. */
  const DefaultState := "EXECUTED"

  /** The default direction of `sort_by_date`: newest first. */
  const DefaultReverseOrder := true

  /** `item.get('state') == state`: a record without a state never matches. */
  predicate HasState(t: Transaction, state: string) {
    t.state == Some(state)
  }

  /** `filter_by_state`: exactly the records in the given state, in order. */
  function FilterByState(ts: seq<Transaction>, state: string): (r: seq<Transaction>)
    ensures forall i :: 0 <= i < |r| ==> HasState(r[i], state)
    ensures IsSubseq(r, ts)
    ensures forall t :: multiset(r)[t] == if HasState(t, state) then multiset(ts)[t] else 0
  {
    Filter(ts, t => HasState(t, state))
  }

  /** Every record carries a `date`. */
  predicate AllDated(ts: seq<Transaction>) {
    forall i :: 0 <= i < |ts| ==> ts[i].date.Some?
  }

  /** The sort key `x['date']`; it is consulted only once every record is
      known to have a date, so the fallback is never used. */
  function DateKey(t: Transaction): string {
    t.date.GetOr("")
  }

  /** `sort_by_date`: a record without a date raises KeyError; otherwise the
      records are permuted into date order, newest first when
      `reverseOrder` holds, records of equal date keeping their input order. */
  function SortByDate(ts: seq<Transaction>, reverseOrder: bool): (r: Result<seq<Transaction>>)
    ensures r.Err? <==> !AllDated(ts)
    ensures r.Err? ==> r.error == MissingKey("date")
    ensures r.Ok? ==> multiset(r.value) == multiset(ts) && AllDated(r.value)
    ensures r.Ok? ==> forall i, j :: 0 <= i < j < |r.value| ==>
      InOrder(r.value[i].date.value, r.value[j].date.value, reverseOrder)
    ensures r.Ok? ==> forall d :: WithKey(r.value, DateKey, d) == WithKey(ts, DateKey, d)
  {
    if !AllDated(ts) then Err(MissingKey("date"))
    else
      var sorted := SortBy(ts, DateKey, reverseOrder);
      SortByPermutes(ts, DateKey, reverseOrder);
      SortBySorted(ts, DateKey, reverseOrder);
      assert AllDated(sorted) by {
        forall i | 0 <= i < |sorted| ensures sorted[i].date.Some? {
          assert sorted[i] in multiset(ts);
        }
      }
      assert forall d :: WithKey(sorted, DateKey, d) == WithKey(ts, DateKey, d) by {
        forall d ensures WithKey(sorted, DateKey, d) == WithKey(ts, DateKey, d) {
          SortByStable(ts, DateKey, reverseOrder, d);
        }
      }
      Ok(sorted)
  }

  /** Records that all carry the same date come back in their input order,
      in either direction. */
  lemma SameDateKeepsOrder(ts: seq<Transaction>, d: string, reverseOrder: bool)
    requires forall i :: 0 <= i < |ts| ==> ts[i].date == Some(d)
    ensures SortByDate(ts, reverseOrder) == Ok(ts)
  {
    assert AllDated(ts);
    var r := SortByDate(ts, reverseOrder).value;
    forall i | 0 <= i < |ts| ensures DateKey(ts[i]) == d {
    }
    forall i | 0 <= i < |r| ensures DateKey(r[i]) == d {
      assert r[i] in multiset(ts);
      var m :| 0 <= m < |ts| && ts[m] == r[i];
    }
    WithKeyAll(ts, DateKey, d);
    WithKeyAll(r, DateKey, d);
  }
}

=== FILE: results.dfy ===
/** Failure-compatible wrappers shared by every module: the optional values that
    Python's dict.get returns, and the ValueError/KeyError outcomes of the
    maskers and the sorter. */
module Results {

  /** A value that may be missing, as a dictionary lookup with `get` yields. */
  datatype Option<+T> = None | Some(value: T) {

    /** The held value, or `default` when missing (Python's `d.get(k, default)`). */
    function GetOr(default: T): T {
      match this
      case Some(v) => v
      case None => default
    }
  }

  /** The kinds of failure the core raises. */
  datatype Error =
    | CardNotDigits      // ValueError: the card number holds a non-digit
    | CardBadLength      // ValueError: the card number is not 13..19 digits long
    | AccountNotDigits   // ValueError: the account number holds a non-digit
    | BadInputFormat     // ValueError: fewer than two tokens in a labelled number
    | MissingKey(key: string)  // KeyError: a record lacks a key the operation reads

  /** Either a computed value or the error that was raised instead. */
  datatype Result<+T> = Ok(value: T) | Err(error: Error) {

    predicate IsFailure() {
      Err?
    }

    function PropagateFailure<U>(): Result<U>
      requires Err?
    {
      Err(error)
    }

    function Extract(): T
      requires Ok?
    {
      value
    }
  }
}

=== FILE: scenarios.dfy ===
/** Worked examples from the repository's tests, stated as facts about the model. */
module Scenarios {
  import opened Results
  import opened Text
  import opened Masks
  import opened Widget
  import opened Generators
  import opened Transactions
  import opened Processing
  import opened Sorting

  lemma DigitsAccepted()
    ensures OnlyDigits("123456")
  {
  }

  lemma NonDigitsRejected()
    ensures !OnlyDigits("abc123") && !OnlyDigits("123-456") && !OnlyDigits("")
  {
    assert !IsDigit("abc123"[0]);
    assert !IsDigit("123-456"[3]);
  }

  lemma SixteenInFours()
    ensures FormatInBlocks("1234567890123456", 4) == "1234 5678 9012 3456"
  {
    FourPieces("1234", "5678", "9012", "3456");
    assert "1234" + "5678" == "12345678";
    assert "12345678" + "9012" == "123456789012";
    assert "123456789012" + "3456" == "1234567890123456";
    assert "1234" + " " + "5678" == "1234 5678";
    assert "1234 5678" + " " + "9012" == "1234 5678 9012";
    assert "1234 5678 9012" + " " + "3456" == "1234 5678 9012 3456";
  }

  /** Three full blocks and a rest, formatted. */
  lemma FourPieces(a: string, b: string, c: string, d: string)
    requires |a| == |b| == |c| == 4 && 1 <= |d| <= 4
    ensures FormatInBlocks(a + b + c + d, 4) == a + " " + b + " " + c + " " + d
  {
    var t := a + b + c + d;
    FourBlocks(t);
    assert t[..4] == a && t[4..8] == b && t[8..12] == c && t[12..] == d;
  }

  lemma SixteenInSixes()
    ensures FormatInBlocks("1234567890123456", 6) == "123456 789012 3456"
  {
    ThreePieces("123456", "789012", "3456");
    assert "123456" + "789012" == "123456789012";
    assert "123456789012" + "3456" == "1234567890123456";
    assert "123456" + " " + "789012" == "123456 789012";
    assert "123456 789012" + " " + "3456" == "123456 789012 3456";
  }

  /** Two full blocks of six and a rest, formatted. */
  lemma ThreePieces(a: string, b: string, c: string)
    requires |a| == |b| == 6 && 1 <= |c| <= 6
    ensures FormatInBlocks(a + b + c, 6) == a + " " + b + " " + c
  {
    var t := a + b + c;
    assert t[..6] == a && t[6..] == b + c;
    TwoPieces(b, c);
    BlocksStep(t, 6);
  }

  /** One full block of six and a rest, formatted. */
  lemma TwoPieces(b: string, c: string)
    requires |b| == 6 && 1 <= |c| <= 6
    ensures FormatInBlocks(b + c, 6) == b + " " + c
  {
    BlocksStep(b + c, 6);
    assert (b + c)[..6] == b && (b + c)[6..] == c;
  }

  lemma ShortBlocksUnchanged()
    ensures FormatInBlocks("", 4) == "" && FormatInBlocks("123", 4) == "123"
  {
  }

  /** A digit string has nothing for `strip()` to remove, so both maskers
      check it as given. */
  lemma PlainDigits(s: string)
    requires OnlyDigits(s)
    ensures MaskCardNumber(FromString(s)) == MaskCardDigits(s)
    ensures MaskAccount(FromString(s)) == MaskAccountDigits(s)
  {
    DigitsHaveNoSpace(s);
    UnspacedArgument(s);
  }

  lemma SixteenDigitExample()
    ensures MaskCardNumber(FromString("1234567890123456")) == Ok("1234 56** **** 3456")
  {
    var s := "1234567890123456";
    SixteenDigitsExample();
    PlainDigits(s);
    SixteenDigitCard(s);
    SixteenTemplateExample();
  }

  lemma SixteenDigitsExample()
    ensures OnlyDigits("1234567890123456")
  {
    var s := "1234567890123456";
    forall i | 0 <= i < |s| ensures IsDigit(s[i]) {
    }
  }

  lemma SixteenTemplateExample()
    ensures SixteenTemplate("1234567890123456") == "1234 56** **** 3456"
  {
    var s := "1234567890123456";
    assert s[..4] == "1234" && s[4..6] == "56" && s[12..] == "3456";
    assert "1234" + " " + "56" + "** **** " + "3456" == "1234 56** **** 3456";
  }

  lemma ThirteenDigitExample()
    ensures MaskCardNumber(FromString("1234567890123")) == Ok("1234 56** *012 3")
  {
    var s := "1234567890123";
    ThirteenDigitsExample();
    PlainDigits(s);
    ThirteenDigitCard(s);
    ThirteenLayoutExample();
  }

  lemma ThirteenDigitsExample()
    ensures OnlyDigits("1234567890123")
  {
    var s := "1234567890123";
    forall i | 0 <= i < |s| ensures IsDigit(s[i]) {
    }
  }

  lemma ThirteenLayoutExample()
    ensures var s := "1234567890123";
      s[..4] + " " + s[4..6] + "** *" + s[9..12] + " " + s[12..] == "1234 56** *012 3"
  {
    var s := "1234567890123";
    assert s[..4] == "1234" && s[4..6] == "56" && s[9..12] == "012" && s[12..] == "3";
    assert "1234" + " " + "56" + "** *" + "012" + " " + "3" == "1234 56** *012 3";
  }

  lemma NineteenDigitExample()
    ensures MaskCardNumber(FromString("1234567890123456789")) == Ok("1234 56** **** ***6 789")
  {
    var s := "1234567890123456789";
    NineteenDigitsExample();
    PlainDigits(s);
    NineteenDigitCard(s);
    NineteenLayoutExample();
  }

  lemma NineteenDigitsExample()
    ensures OnlyDigits("1234567890123456789")
  {
    var s := "1234567890123456789";
    forall i | 0 <= i < |s| ensures IsDigit(s[i]) {
    }
  }

  lemma NineteenLayoutExample()
    ensures var s := "1234567890123456789";
      s[..4] + " " + s[4..6] + "** **** ***" + s[15..16] + " " + s[16..] == "1234 56** **** ***6 789"
  {
    var s := "1234567890123456789";
    assert s[..4] == "1234" && s[4..6] == "56" && s[15..16] == "6" && s[16..] == "789";
    assert "1234" + " " + "56" + "** **** ***" + "6" + " " + "789" == "1234 56** **** ***6 789";
  }

  lemma LettersInCardRejected()
    ensures MaskCardNumber(FromString("1234abcd5678efgh")) == Err(CardNotDigits)
  {
    CardLettersHaveNoSpace();
    CardWithNonDigit("1234abcd5678efgh", 4);
  }

  /** A whitespace-free card number with a non-digit at `k` is rejected. */
  lemma CardWithNonDigit(s: string, k: int)
    requires NoSpace(s) && 0 <= k < |s| && !IsDigit(s[k])
    ensures MaskCardNumber(FromString(s)) == Err(CardNotDigits)
  {
    StripNoSpace(s);
  }

  lemma CardLettersHaveNoSpace()
    ensures NoSpace("1234abcd5678efgh")
  {
    var s := "1234abcd5678efgh";
    forall i | 0 <= i < |s| ensures !IsSpace(s[i]) {
    }
  }

  lemma TwelveDigitCardRejected()
    ensures MaskCardNumber(FromString("123456789012")) == Err(CardBadLength)
  {
    var s := "123456789012";
    forall i | 0 <= i < |s| ensures IsDigit(s[i]) && !IsSpace(s[i]) {
    }
    StripNoSpace(s);
  }

  lemma TwentyDigitCardRejected()
    ensures MaskCardNumber(FromString("12345678901234567890")) == Err(CardBadLength)
  {
    var s := "12345678901234567890";
    TwentyDigits();
    DigitsHaveNoSpace(s);
    StripNoSpace(s);
  }

  lemma LongAccountExample()
    ensures MaskAccount(FromString("12345678901234567890")) == Ok("**7890")
  {
    var s := "12345678901234567890";
    TwentyDigits();
    PlainDigits(s);
    AccountOfDigits(s);
    LongAccountTail();
  }

  lemma LongAccountTail()
    ensures var s := "12345678901234567890"; "**" + s[|s| - AccountTail..] == "**7890"
  {
    var s := "12345678901234567890";
    assert s[|s| - 4..] == "7890";
  }

  lemma AccountOfDigits(s: string)
    requires OnlyDigits(s) && |s| >= AccountTail
    ensures MaskAccountDigits(s) == Ok("**" + s[|s| - AccountTail..])
  {
  }

  lemma TwentyDigits()
    ensures OnlyDigits("12345678901234567890")
  {
    var s := "12345678901234567890";
    forall i | 0 <= i < |s| ensures IsDigit(s[i]) {
    }
  }

  lemma ShortAccountExample()
    ensures MaskAccount(FromString("123")) == Ok("**123")
  {
    ShortAccountPieces();
    ShortAccountText();
  }

  lemma ShortAccountPieces()
    ensures MaskAccount(FromString("123")) == Ok("**" + "123")
  {
    ThreeDigits();
    ShortAccountOfDigits("123");
  }

  /** A literal equality, kept apart from its caller's context. */
  lemma ShortAccountText()
    ensures "**" + "123" == "**123"
  {
  }

  lemma ThreeDigits()
    ensures OnlyDigits("123")
  {
    var s := "123";
    forall i | 0 <= i < |s| ensures IsDigit(s[i]) {
    }
  }

  /** An account number shorter than the tail is shown whole after `**`. */
  lemma ShortAccountOfDigits(s: string)
    requires OnlyDigits(s) && |s| < AccountTail
    ensures MaskAccount(FromString(s)) == Ok("**" + s)
  {
    PlainDigits(s);
  }

  lemma LettersInAccountRejected()
    ensures MaskAccount(FromString("12345abcd67890")) == Err(AccountNotDigits)
  {
    AccountLettersHaveNoSpace();
    AccountWithNonDigit("12345abcd67890", 5);
  }

  /** A whitespace-free account number with a non-digit at `k` is rejected. */
  lemma AccountWithNonDigit(s: string, k: int)
    requires NoSpace(s) && 0 <= k < |s| && !IsDigit(s[k])
    ensures MaskAccount(FromString(s)) == Err(AccountNotDigits)
  {
    StripNoSpace(s);
  }

  lemma AccountLettersHaveNoSpace()
    ensures NoSpace("12345abcd67890")
  {
    var s := "12345abcd67890";
    forall i | 0 <= i < |s| ensures !IsSpace(s[i]) {
    }
  }

  lemma EmptyLineRejected()
    ensures MaskAccountCard("") == Err(BadInputFormat)
  {
  }

  lemma SingleWordRejected()
    ensures MaskAccountCard("InvalidString") == Err(BadInputFormat)
  {
    var w := "InvalidString";
    forall i | 0 <= i < |w| ensures !IsSpace(w[i]) {
    }
    SplitWeave(["", ""], [w]);
    assert Weave(["", ""], [w]) == w;
  }

  lemma CardItemExample()
    ensures CardNumber(10001) == "0000 0000 0001 0001"
  {
    PaddedExample();
    ItemBlocks("0000000000010001", "0000", "0000", "0001", "0001");
    assert "0000" + " " + "0000" == "0000 0000";
    assert "0000 0000" + " " + "0001" == "0000 0000 0001";
    assert "0000 0000 0001" + " " + "0001" == "0000 0000 0001 0001";
  }

  /** The blocks of a 16-character string, named. */
  lemma ItemBlocks(s: string, a: string, b: string, c: string, d: string)
    requires s == a + b + c + d && |a| == |b| == |c| == |d| == 4
    ensures s[..4] + " " + s[4..8] + " " + s[8..12] + " " + s[12..] == a + " " + b + " " + c + " " + d
  {
    assert s[..4] == a && s[4..8] == b && s[8..12] == c && s[12..] == d;
  }

  lemma PaddedExample()
    ensures Decimal.ZeroFilled(10001, 16) == "0000000000010001"
  {
    DecimalExample();
    assert Repeat('0', 11) == "00000000000";
    assert "00000000000" + "10001" == "0000000000010001";
  }

  lemma DecimalExample()
    ensures Decimal.NatToDecimal(10001) == "10001"
  {
    assert Decimal.NatToDecimal(1) == "1";
    assert Decimal.NatToDecimal(10) == "10";
    assert Decimal.NatToDecimal(100) == "100";
    assert Decimal.NatToDecimal(1000) == "1000";
  }

  lemma SingleItemRange()
    ensures CardNumberGenerator(10, 10) == ["0000 0000 0000 0010"]
  {
    SingleItem();
    assert CardNumberGenerator(11, 10) == [];
  }

  lemma SingleItem()
    ensures CardNumber(10) == "0000 0000 0000 0010"
  {
    PaddedTen();
    ItemBlocks("0000000000000010", "0000", "0000", "0000", "0010");
    assert "0000" + " " + "0000" == "0000 0000";
    assert "0000 0000" + " " + "0000" == "0000 0000 0000";
    assert "0000 0000 0000" + " " + "0010" == "0000 0000 0000 0010";
  }

  lemma PaddedTen()
    ensures Decimal.ZeroFilled(10, 16) == "0000000000000010"
  {
    assert Decimal.NatToDecimal(1) == "1";
    assert Decimal.NatToDecimal(10) == "10";
    assert Repeat('0', 14) == "00000000000000";
  }

  lemma EmptyRange()
    ensures CardNumberGenerator(3, 2) == []
  {
  }

  lemma CardLineExample()
    ensures MaskAccountCard("Visa Platinum 7000792289606361") == Ok("Visa Platinum 7000 79** **** 6361")
  {
    var card := "7000792289606361";
    CardLineWords();
    CardLine(["", " ", " ", ""], ["Visa", "Platinum"], card);
    CardLineWeave();
    CardLineNumber();
    CardLineLabel();
  }

  /** A literal equality, kept apart from its caller's context. */
  lemma CardLineLabel()
    ensures Join(" ", ["Visa", "Platinum"]) + " " + "7000 79** **** 6361" == "Visa Platinum 7000 79** **** 6361"
  {
    assert Join(" ", ["Visa", "Platinum"]) == "Visa Platinum";
  }

  lemma CardLineWords()
    ensures NoSpace("Visa") && NoSpace("Platinum") && NoSpace("7000792289606361")
    ensures Separators(["", " ", " ", ""])
  {
    var a, b, c := "Visa", "Platinum", "7000792289606361";
    forall i | 0 <= i < |a| ensures !IsSpace(a[i]) {
    }
    forall i | 0 <= i < |b| ensures !IsSpace(b[i]) {
    }
    forall i | 0 <= i < |c| ensures !IsSpace(c[i]) {
    }
    var seps := ["", " ", " ", ""];
    forall i | 0 <= i < |seps| ensures AllSpace(seps[i]) {
    }
  }

  lemma CardLineWeave()
    ensures Weave(["", " ", " ", ""], ["Visa", "Platinum"] + ["7000792289606361"]) == "Visa Platinum 7000792289606361"
  {
    assert ["Visa", "Platinum"] + ["7000792289606361"] == ["Visa", "Platinum", "7000792289606361"];
    SpacedThree("Visa", "Platinum", "7000792289606361");
    assert "Visa" + " " + "Platinum" == "Visa Platinum";
    assert "Visa Platinum" + " " + "7000792289606361" == "Visa Platinum 7000792289606361";
  }

  /** Three words separated by single spaces. */
  lemma SpacedThree(a: string, b: string, c: string)
    ensures Weave(["", " ", " ", ""], [a, b, c]) == a + " " + b + " " + c
  {
    var seps, ts := ["", " ", " ", ""], [a, b, c];
    assert seps[1..] == [" ", " ", ""] && ts[1..] == [b, c];
    assert seps[2..] == [" ", ""] && ts[2..] == [c];
    calc {
      Weave(seps, ts);
      "" + a + Weave(seps[1..], ts[1..]);
      "" + a + (" " + b + Weave(seps[2..], ts[2..]));
      "" + a + (" " + b + (" " + c + Weave([""], [])));
      a + " " + b + " " + c;
    }
  }

  /** Two words separated by a single space. */
  lemma SpacedTwo(a: string, b: string)
    ensures Weave(["", " ", ""], [a, b]) == a + " " + b
  {
    var seps, ts := ["", " ", ""], [a, b];
    assert seps[1..] == [" ", ""] && ts[1..] == [b];
    calc {
      Weave(seps, ts);
      "" + a + Weave(seps[1..], ts[1..]);
      "" + a + (" " + b + Weave([""], []));
      a + " " + b;
    }
  }

  lemma CardLineNumber()
    ensures MaskCardDigits("7000792289606361") == Ok("7000 79** **** 6361")
  {
    var s := "7000792289606361";
    CardLineDigits();
    SixteenDigitCard(s);
    CardLineTemplate();
  }

  lemma CardLineDigits()
    ensures OnlyDigits("7000792289606361")
  {
    var s := "7000792289606361";
    forall i | 0 <= i < |s| ensures IsDigit(s[i]) {
    }
  }

  lemma CardLineTemplate()
    ensures SixteenTemplate("7000792289606361") == "7000 79** **** 6361"
  {
    var s := "7000792289606361";
    assert s[..4] == "7000" && s[4..6] == "79" && s[12..] == "6361";
    assert "7000" + " " + "79" + "** **** " + "6361" == "7000 79** **** 6361";
  }

  lemma AccountLineExample()
    ensures MaskAccountCard("Счет 73654108430135874305") == Ok("Счет **4305")
  {
    var number := "73654108430135874305";
    AccountLineWords();
    AccountLine(["", " ", ""], [number]);
    AccountLineWeave();
    assert Concat([number]) == number;
    AccountLineNumber();
    AccountLineLabel();
  }

  lemma AccountLineWeave()
    ensures Weave(["", " ", ""], [AccountMarker] + ["73654108430135874305"]) == "Счет 73654108430135874305"
  {
    var number := "73654108430135874305";
    assert [AccountMarker] + [number] == [AccountMarker, number];
    SpacedTwo(AccountMarker, number);
    assert AccountMarker + " " + number == "Счет 73654108430135874305";
  }

  /** A literal equality, kept apart from its caller's context. */
  lemma AccountLineLabel()
    ensures AccountMarker + " " + "**4305" == "Счет **4305"
  {
  }

  lemma AccountLineWords()
    ensures NoSpace("73654108430135874305") && Separators(["", " ", ""])
  {
    var c := "73654108430135874305";
    forall i | 0 <= i < |c| ensures !IsSpace(c[i]) {
    }
    var seps := ["", " ", ""];
    forall i | 0 <= i < |seps| ensures AllSpace(seps[i]) {
    }
  }

  lemma AccountLineNumber()
    ensures MaskAccountDigits("73654108430135874305") == Ok("**4305")
  {
    var s := "73654108430135874305";
    AccountLineDigits();
    AccountOfDigits(s);
    AccountLineTail();
  }

  lemma AccountLineTail()
    ensures var s := "73654108430135874305"; "**" + s[|s| - AccountTail..] == "**4305"
  {
    var s := "73654108430135874305";
    assert s[|s| - 4..] == "4305";
  }

  lemma AccountLineDigits()
    ensures OnlyDigits("73654108430135874305")
  {
    var s := "73654108430135874305";
    forall i | 0 <= i < |s| ensures IsDigit(s[i]) {
    }
  }

  // ------------------------------------------------------------- processing

  /** A record with only an `id`, a `state` and a `date`. */
  function Record(id: int, state: Option<string>, date: Option<string>): Transaction {
    Transaction(id, state, date, None, None)
  }

  /** Of four records, the first and the third are in the state. */
  lemma FirstAndThirdKept(ts: seq<Transaction>, state: string)
    requires |ts| == 4
    requires HasState(ts[0], state) && !HasState(ts[1], state)
    requires HasState(ts[2], state) && !HasState(ts[3], state)
    ensures FilterByState(ts, state) == [ts[0], ts[2]]
  {
    assert FilterByState(ts[3..], state) == [] by {
      assert ts[3..][1..] == [];
    }
    assert FilterByState(ts[2..], state) == [ts[2]] by {
      assert ts[2..][0] == ts[2] && ts[2..][1..] == ts[3..];
    }
    assert FilterByState(ts[1..], state) == [ts[2]] by {
      assert ts[1..][0] == ts[1] && ts[1..][1..] == ts[2..];
    }
  }

  /** Of three records, the first and the third are in the state. */
  lemma FirstAndLastKept(ts: seq<Transaction>, state: string)
    requires |ts| == 3
    requires HasState(ts[0], state) && !HasState(ts[1], state) && HasState(ts[2], state)
    ensures FilterByState(ts, state) == [ts[0], ts[2]]
  {
    assert FilterByState(ts[2..], state) == [ts[2]] by {
      assert ts[2..][0] == ts[2] && ts[2..][1..] == [];
    }
    assert FilterByState(ts[1..], state) == [ts[2]] by {
      assert ts[1..][0] == ts[1] && ts[1..][1..] == ts[2..];
    }
  }

  /** Of four records, the second and the third are in the state. */
  lemma MiddleTwoKept(ts: seq<Transaction>, state: string)
    requires |ts| == 4
    requires !HasState(ts[0], state) && HasState(ts[1], state)
    requires HasState(ts[2], state) && !HasState(ts[3], state)
    ensures FilterByState(ts, state) == [ts[1], ts[2]]
  {
    assert FilterByState(ts[3..], state) == [] by {
      assert ts[3..][1..] == [];
    }
    assert FilterByState(ts[2..], state) == [ts[2]] by {
      assert ts[2..][0] == ts[2] && ts[2..][1..] == ts[3..];
    }
    assert FilterByState(ts[1..], state) == [ts[1], ts[2]] by {
      assert ts[1..][0] == ts[1] && ts[1..][1..] == ts[2..];
    }
  }

  /** Of two records, neither is in the state. */
  lemma NeitherKept(ts: seq<Transaction>, state: string)
    requires |ts| == 2
    requires !HasState(ts[0], state) && !HasState(ts[1], state)
    ensures FilterByState(ts, state) == []
  {
    assert FilterByState(ts[1..], state) == [] by {
      assert ts[1..][0] == ts[1] && ts[1..][1..] == [];
    }
  }

  lemma FilterExecutedExample()
    ensures var ts := [Record(1, Some("EXECUTED"), None), Record(2, Some("PENDING"), None),
                       Record(3, Some("EXECUTED"), None), Record(4, Some("CANCELED"), None)];
      FilterByState(ts, DefaultState) == [ts[0], ts[2]]
  {
    var ts := [Record(1, Some("EXECUTED"), None), Record(2, Some("PENDING"), None),
               Record(3, Some("EXECUTED"), None), Record(4, Some("CANCELED"), None)];
    FirstAndThirdKept(ts, DefaultState);
  }

  lemma FilterPendingExample()
    ensures var ts := [Record(1, Some("EXECUTED"), None), Record(2, Some("PENDING"), None),
                       Record(3, Some("PENDING"), None), Record(4, Some("CANCELED"), None)];
      FilterByState(ts, "PENDING") == [ts[1], ts[2]]
  {
    var ts := [Record(1, Some("EXECUTED"), None), Record(2, Some("PENDING"), None),
               Record(3, Some("PENDING"), None), Record(4, Some("CANCELED"), None)];
    MiddleTwoKept(ts, "PENDING");
  }

  lemma NoMatchExample()
    ensures var ts := [Record(1, Some("EXECUTED"), None), Record(2, Some("EXECUTED"), None)];
      FilterByState(ts, "PENDING") == []
  {
    var ts := [Record(1, Some("EXECUTED"), None), Record(2, Some("EXECUTED"), None)];
    NeitherKept(ts, "PENDING");
  }

  lemma MissingStateSkipped()
    ensures var ts := [Record(1, Some("EXECUTED"), None), Record(2, None, None), Record(3, Some("EXECUTED"), None)];
      FilterByState(ts, DefaultState) == [ts[0], ts[2]]
  {
    var ts := [Record(1, Some("EXECUTED"), None), Record(2, None, None), Record(3, Some("EXECUTED"), None)];
    FirstAndLastKept(ts, DefaultState);
  }

  lemma EmptyFilterExample()
    ensures FilterByState([], DefaultState) == []
  {
  }

  lemma EmptySortExample()
    ensures SortByDate([], DefaultReverseOrder) == Ok([])
  {
  }

  /** Three records whose dates are ordered `d3 < d1 < d2`. */
  predicate ThreeDates(t1: Transaction, t2: Transaction, t3: Transaction) {
    && t1.date.Some? && t2.date.Some? && t3.date.Some?
    && LexLe(t3.date.value, t1.date.value) && !LexLe(t1.date.value, t3.date.value)
    && LexLe(t1.date.value, t2.date.value) && !LexLe(t2.date.value, t1.date.value)
    && LexLe(t3.date.value, t2.date.value) && !LexLe(t2.date.value, t3.date.value)
  }

  lemma ThreeDatesDescending(t1: Transaction, t2: Transaction, t3: Transaction)
    requires ThreeDates(t1, t2, t3)
    ensures SortByDate([t1, t2, t3], true) == Ok([t2, t1, t3])
  {
    var ts := [t1, t2, t3];
    assert AllDated(ts);
    assert ts[1..] == [t2, t3] && ts[1..][1..] == [t3] && [t3][1..] == [];
    assert SortBy([t3], DateKey, true) == [t3];
    assert SortBy([t2, t3], DateKey, true) == [t2, t3];
    assert Insert(t1, [t2, t3], DateKey, true) == [t2] + Insert(t1, [t3], DateKey, true);
    assert Insert(t1, [t3], DateKey, true) == [t1, t3];
    assert SortBy(ts, DateKey, true) == Insert(t1, [t2, t3], DateKey, true);
    assert [t2] + [t1, t3] == [t2, t1, t3];
    assert SortByDate(ts, true) == Ok(SortBy(ts, DateKey, true));
  }

  lemma ThreeDatesAscending(t1: Transaction, t2: Transaction, t3: Transaction)
    requires ThreeDates(t1, t2, t3)
    ensures SortByDate([t1, t2, t3], false) == Ok([t3, t1, t2])
  {
    var ts := [t1, t2, t3];
    assert AllDated(ts);
    assert ts[1..] == [t2, t3] && ts[1..][1..] == [t3] && [t3][1..] == [];
    assert SortBy([t3], DateKey, false) == [t3];
    assert Insert(t2, [t3], DateKey, false) == [t3] + Insert(t2, [], DateKey, false);
    assert SortBy([t2, t3], DateKey, false) == [t3, t2];
    assert Insert(t1, [t3, t2], DateKey, false) == [t3] + Insert(t1, [t2], DateKey, false);
    assert Insert(t1, [t2], DateKey, false) == [t1, t2];
    assert SortBy(ts, DateKey, false) == Insert(t1, [t3, t2], DateKey, false);
    assert [t3] + [t1, t2] == [t3, t1, t2];
    assert SortByDate(ts, false) == Ok(SortBy(ts, DateKey, false));
  }

  /** Dates that agree up to one character are ordered by that character. */
  lemma DatesByOneCharacter(p: string, x1: string, x2: string, x3: string)
    ensures ThreeDates(Record(1, None, Some(p + "3" + x1)), Record(2, None, Some(p + "4" + x2)),
                       Record(3, None, Some(p + "2" + x3)))
  {
    assert p + "3" + x1 == p + ("3" + x1) && p + "4" + x2 == p + ("4" + x2) && p + "2" + x3 == p + ("2" + x3);
    LexLeCommonPrefix(p, "3" + x1, "2" + x3);
    LexLeCommonPrefix(p, "2" + x3, "3" + x1);
    LexLeCommonPrefix(p, "3" + x1, "4" + x2);
    LexLeCommonPrefix(p, "4" + x2, "3" + x1);
    LexLeCommonPrefix(p, "2" + x3, "4" + x2);
    LexLeCommonPrefix(p, "4" + x2, "2" + x3);
  }

  /** The dates of the date-sorting examples, cut at the month digit. */
  /** A literal equality, kept apart from its caller's context. */
  lemma MarchDate()
    ensures "2023-0" + "3" + "-11T02:26:18.671407" == "2023-03-11T02:26:18.671407"
  {
  }

  /** A literal equality, kept apart from its caller's context. */
  lemma AprilDate()
    ensures "2023-0" + "4" + "-15T10:30:00.123456" == "2023-04-15T10:30:00.123456"
  {
  }

  /** A literal equality, kept apart from its caller's context. */
  lemma FebruaryDate()
    ensures "2023-0" + "2" + "-05T18:45:30.987654" == "2023-02-05T18:45:30.987654"
  {
  }

  lemma SortDescendingExample()
    ensures var ts := [Record(1, None, Some("2023-03-11T02:26:18.671407")),
                       Record(2, None, Some("2023-04-15T10:30:00.123456")),
                       Record(3, None, Some("2023-02-05T18:45:30.987654"))];
      SortByDate(ts, DefaultReverseOrder) == Ok([ts[1], ts[0], ts[2]])
  {
    var p, x1, x2, x3 := "2023-0", "-11T02:26:18.671407", "-15T10:30:00.123456", "-05T18:45:30.987654";
    MarchDate();
    AprilDate();
    FebruaryDate();
    DatesByOneCharacter(p, x1, x2, x3);
    ThreeDatesDescending(Record(1, None, Some(p + "3" + x1)), Record(2, None, Some(p + "4" + x2)),
                         Record(3, None, Some(p + "2" + x3)));
  }

  lemma SortAscendingExample()
    ensures var ts := [Record(1, None, Some("2023-03-11T02:26:18.671407")),
                       Record(2, None, Some("2023-04-15T10:30:00.123456")),
                       Record(3, None, Some("2023-02-05T18:45:30.987654"))];
      SortByDate(ts, false) == Ok([ts[2], ts[0], ts[1]])
  {
    var p, x1, x2, x3 := "2023-0", "-11T02:26:18.671407", "-15T10:30:00.123456", "-05T18:45:30.987654";
    MarchDate();
    AprilDate();
    FebruaryDate();
    DatesByOneCharacter(p, x1, x2, x3);
    ThreeDatesAscending(Record(1, None, Some(p + "3" + x1)), Record(2, None, Some(p + "4" + x2)),
                        Record(3, None, Some(p + "2" + x3)));
  }

  lemma SameDatesExample()
    ensures var d := "2023-03-11T02:26:18.671407";
      var ts := [Record(1, None, Some(d)), Record(2, None, Some(d)), Record(3, None, Some(d))];
      SortByDate(ts, DefaultReverseOrder) == Ok(ts)
  {
    var d := "2023-03-11T02:26:18.671407";
    SameDateKeepsOrder([Record(1, None, Some(d)), Record(2, None, Some(d)), Record(3, None, Some(d))], d, true);
  }
}

=== FILE: seqs.dfy ===
/** Order-preserving selection from a sequence: the list comprehension
    `[x for x in s if p(x)]` and the generator that yields the same items. */
module Seqs {

  /** `a` can be obtained from `b` by deleting elements. */
  ghost predicate IsSubseq<T>(a: seq<T>, b: seq<T>)
    decreases |b|
  {
    |a| == 0 || (|b| > 0 && ((a[0] == b[0] && IsSubseq(a[1..], b[1..])) || IsSubseq(a, b[1..])))
  }

  /** The elements of `s` that satisfy `p`, in their original order. Together
      the three postconditions fix the result: a subsequence of `s` that keeps
      every copy of each element satisfying `p` and no other element. */
  function Filter<T(!new)>(s: seq<T>, p: T -> bool): (r: seq<T>)
    ensures forall i :: 0 <= i < |r| ==> p(r[i])
    ensures IsSubseq(r, s)
    ensures forall x :: multiset(r)[x] == if p(x) then multiset(s)[x] else 0
  {
    if |s| == 0 then []
    else
      var rest := Filter(s[1..], p);
      assert s == [s[0]] + s[1..];
      if p(s[0]) then
        assert ([s[0]] + rest)[1..] == rest;
        [s[0]] + rest
      else rest
  }

  lemma {:induction false} FilterAppend<T(!new)>(a: seq<T>, b: seq<T>, p: T -> bool)
    ensures Filter(a + b, p) == Filter(a, p) + Filter(b, p)
  {
    if |a| == 0 {
      assert a + b == b;
    } else {
      var x, t := a[0], a[1..];
      assert a == [x] + t;
      AppendAssoc([x], t, b);
      FilterAppend(t, b, p);
      FilterAppendStep(x, t, b, p);
    }
  }

  /** One step of `FilterAppend`: putting an element in front of the first
      part keeps the equation. */
  lemma FilterAppendStep<T(!new)>(x: T, t: seq<T>, b: seq<T>, p: T -> bool)
    requires Filter(t + b, p) == Filter(t, p) + Filter(b, p)
    ensures Filter([x] + (t + b), p) == Filter([x] + t, p) + Filter(b, p)
  {
    FilterCons(x, t + b, p);
    FilterCons(x, t, p);
    if p(x) {
      AppendAssoc([x], Filter(t, p), Filter(b, p));
    }
  }

  lemma AppendAssoc<T>(a: seq<T>, b: seq<T>, c: seq<T>)
    ensures a + (b + c) == (a + b) + c
  {
  }

  /** Filtering commutes with putting an element in front. */
  lemma FilterCons<T(!new)>(y: T, a: seq<T>, p: T -> bool)
    ensures Filter([y] + a, p) == if p(y) then [y] + Filter(a, p) else Filter(a, p)
  {
    assert ([y] + a)[1..] == a;
  }

  /** Two adjacent elements of which at most one is selected may be swapped
      without changing what is selected. */
  lemma FilterSwap<T(!new)>(x: T, y: T, t: seq<T>, p: T -> bool)
    requires !(p(x) && p(y))
    ensures Filter([y] + ([x] + t), p) == Filter([x] + ([y] + t), p)
  {
    FilterCons(y, [x] + t, p);
    FilterCons(x, t, p);
    FilterCons(x, [y] + t, p);
    FilterCons(y, t, p);
  }

  /** Selecting with a predicate every element satisfies keeps everything. */
  lemma {:induction false} FilterAll<T(!new)>(s: seq<T>, p: T -> bool)
    requires forall i :: 0 <= i < |s| ==> p(s[i])
    ensures Filter(s, p) == s
  {
    if |s| > 0 {
      FilterAll(s[1..], p);
    }
  }
}

=== FILE: sorting.dfy ===
/** Python's `sorted(s, key=key, reverse=descending)` for string keys: a
    stable sort, in either direction, by the strings' `<=`. */
module Sorting {
  import opened Text
  import opened Seqs

  /** Key `a` may stand before key `b`: `a <= b` ascending, `a >= b` descending. */
  predicate InOrder(a: string, b: string, descending: bool) {
    if descending then LexLe(b, a) else LexLe(a, b)
  }

  lemma InOrderReflexive(a: string, descending: bool)
    ensures InOrder(a, a, descending)
  {
    LexLeReflexive(a);
  }

  lemma InOrderTotal(a: string, b: string, descending: bool)
    ensures InOrder(a, b, descending) || InOrder(b, a, descending)
  {
    LexLeTotal(a, b);
  }

  lemma InOrderTransitive(a: string, b: string, c: string, descending: bool)
    requires InOrder(a, b, descending) && InOrder(b, c, descending)
    ensures InOrder(a, c, descending)
  {
    if descending {
      LexLeTransitive(c, b, a);
    } else {
      LexLeTransitive(a, b, c);
    }
  }

  /** Every earlier element's key may stand before every later one's. */
  ghost predicate SortedBy<T>(s: seq<T>, key: T -> string, descending: bool) {
    forall i, j :: 0 <= i < j < |s| ==> InOrder(key(s[i]), key(s[j]), descending)
  }

  /** The elements whose key is `k`, in order: stability means a sort leaves
      this subsequence unchanged for every `k`. */
  function WithKey<T(!new)>(s: seq<T>, key: T -> string, k: string): seq<T> {
    Filter(s, x => key(x) == k)
  }

  /** Puts `x` before the first element it may precede. */
  function Insert<T>(x: T, s: seq<T>, key: T -> string, descending: bool): seq<T> {
    if |s| == 0 then [x]
    else if InOrder(key(x), key(s[0]), descending) then [x] + s
    else [s[0]] + Insert(x, s[1..], key, descending)
  }

  /** Insertion sort; an element goes in front of the equal keys that came
      after it, which keeps equal keys in their input order. */
  function SortBy<T>(s: seq<T>, key: T -> string, descending: bool): seq<T> {
    if |s| == 0 then [] else Insert(s[0], SortBy(s[1..], key, descending), key, descending)
  }

  lemma {:induction false} InsertPermutes<T>(x: T, s: seq<T>, key: T -> string, descending: bool)
    ensures multiset(Insert(x, s, key, descending)) == multiset(s) + multiset{x}
  {
    if |s| > 0 && !InOrder(key(x), key(s[0]), descending) {
      InsertPermutes(x, s[1..], key, descending);
      assert s == [s[0]] + s[1..];
    }
  }

  lemma {:induction false} InsertSorted<T>(x: T, s: seq<T>, key: T -> string, descending: bool)
    requires SortedBy(s, key, descending)
    ensures SortedBy(Insert(x, s, key, descending), key, descending)
  {
    if |s| == 0 {
    } else if InOrder(key(x), key(s[0]), descending) {
      forall y | y in multiset(s)
        ensures InOrder(key(x), key(y), descending)
      {
        var m :| 0 <= m < |s| && s[m] == y;
        if m > 0 {
          InOrderTransitive(key(x), key(s[0]), key(s[m]), descending);
        }
      }
      ConsSorted(x, s, key, descending);
    } else {
      var rest := Insert(x, s[1..], key, descending);
      assert SortedBy(s[1..], key, descending) by {
        forall i, j | 0 <= i < j < |s[1..]|
          ensures InOrder(key(s[1..][i]), key(s[1..][j]), descending)
        {
          assert s[1..][i] == s[i + 1] && s[1..][j] == s[j + 1];
        }
      }
      InsertSorted(x, s[1..], key, descending);
      InsertPermutes(x, s[1..], key, descending);
      InOrderTotal(key(x), key(s[0]), descending);
      forall y | y in multiset(rest)
        ensures InOrder(key(s[0]), key(y), descending)
      {
        if y != x {
          assert y in multiset(s[1..]);
          var m :| 0 <= m < |s[1..]| && s[1..][m] == y;
          assert s[m + 1] == y;
        }
      }
      assert Insert(x, s, key, descending) == [s[0]] + rest;
      ConsSorted(s[0], rest, key, descending);
    }
  }

  /** Putting in front an element whose key may precede every key in a sorted
      sequence keeps it sorted. */
  lemma ConsSorted<T>(x: T, s: seq<T>, key: T -> string, descending: bool)
    requires SortedBy(s, key, descending)
    requires forall y | y in multiset(s) :: InOrder(key(x), key(y), descending)
    ensures SortedBy([x] + s, key, descending)
  {
    var r := [x] + s;
    forall i, j | 0 <= i < j < |r|
      ensures InOrder(key(r[i]), key(r[j]), descending)
    {
      assert r[j] == s[j - 1];
      if i == 0 {
        assert s[j - 1] in multiset(s);
      } else {
        assert r[i] == s[i - 1];
      }
    }
  }

  lemma WithKeyAppend<T(!new)>(a: seq<T>, b: seq<T>, key: T -> string, k: string)
    ensures WithKey(a + b, key, k) == WithKey(a, key, k) + WithKey(b, key, k)
  {
    FilterAppend(a, b, x => key(x) == k);
  }

  /** When every element carries key `k`, all of them are selected. */
  lemma WithKeyAll<T(!new)>(s: seq<T>, key: T -> string, k: string)
    requires forall i :: 0 <= i < |s| ==> key(s[i]) == k
    ensures WithKey(s, key, k) == s
  {
    FilterAll(s, x => key(x) == k);
  }

  /** Insertion keeps the order among the elements a predicate selects, when
      any two selected elements may stand in either order. */
  lemma {:induction false} InsertFilter<T(!new)>(x: T, s: seq<T>, key: T -> string, descending: bool, p: T -> bool)
    requires forall a, b :: p(a) && p(b) ==> InOrder(key(a), key(b), descending)
    ensures Filter(Insert(x, s, key, descending), p) == Filter([x] + s, p)
  {
    if |s| == 0 {
      assert [x] + s == [x];
    } else if !InOrder(key(x), key(s[0]), descending) {
      var tail := s[1..];
      var ins := Insert(x, tail, key, descending);
      calc {
        Filter(Insert(x, s, key, descending), p);
        Filter([s[0]] + ins, p);
        { InsertFilter(x, tail, key, descending, p);
          FilterCons(s[0], ins, p);
          FilterCons(s[0], [x] + tail, p); }
        Filter([s[0]] + ([x] + tail), p);
        { FilterSwap(x, s[0], tail, p); }
        Filter([x] + ([s[0]] + tail), p);
        { assert [s[0]] + tail == s; }
        Filter([x] + s, p);
      }
    }
  }

  lemma InsertStable<T(!new)>(x: T, s: seq<T>, key: T -> string, descending: bool, k: string)
    ensures WithKey(Insert(x, s, key, descending), key, k) == WithKey([x] + s, key, k)
  {
    var p := (y: T) => key(y) == k;
    forall a, b | p(a) && p(b) ensures InOrder(key(a), key(b), descending) {
      InOrderReflexive(k, descending);
    }
    InsertFilter(x, s, key, descending, p);
  }

  /** The sort returns a permutation of its input. */
  lemma {:induction false} SortByPermutes<T>(s: seq<T>, key: T -> string, descending: bool)
    ensures multiset(SortBy(s, key, descending)) == multiset(s)
  {
    if |s| > 0 {
      SortByPermutes(s[1..], key, descending);
      InsertPermutes(s[0], SortBy(s[1..], key, descending), key, descending);
      assert s == [s[0]] + s[1..];
    }
  }

  /** The sort orders its output by key in the requested direction. */
  lemma {:induction false} SortBySorted<T>(s: seq<T>, key: T -> string, descending: bool)
    ensures SortedBy(SortBy(s, key, descending), key, descending)
  {
    if |s| > 0 {
      SortBySorted(s[1..], key, descending);
      InsertSorted(s[0], SortBy(s[1..], key, descending), key, descending);
    }
  }

  /** The sort is stable: elements with equal keys keep their input order. */
  lemma {:induction false} SortByStable<T(!new)>(s: seq<T>, key: T -> string, descending: bool, k: string)
    ensures WithKey(SortBy(s, key, descending), key, k) == WithKey(s, key, k)
  {
    if |s| > 0 {
      var rest := SortBy(s[1..], key, descending);
      SortByStable(s[1..], key, descending, k);
      InsertStable(s[0], rest, key, descending, k);
      WithKeyAppend([s[0]], rest, key, k);
      WithKeyAppend([s[0]], s[1..], key, k);
      assert s == [s[0]] + s[1..];
    }
  }
}

=== FILE: text.dfy ===
/** Character classes and the string operations the core borrows from Python's
    `str`: strip(), split() with no separator, join(), and `<=` on strings. */
module Text {

  /** Python's `str.isspace()` (CPython's Py_UNICODE_ISSPACE), the whitespace
      that `str.split()` and `str.strip()` use when given no argument. */
  predicate IsSpace(c: char) {
    var k := c as int;
    || 0x09 <= k <= 0x0D
    || 0x1C <= k <= 0x20
    || k == 0x85 || k == 0xA0 || k == 0x1680
    || 0x2000 <= k <= 0x200A
    || k == 0x2028 || k == 0x2029 || k == 0x202F || k == 0x205F || k == 0x3000
  }

  /** An ASCII decimal digit. */
  predicate IsDigit(c: char) {
    '0' <= c <= '9'
  }

  predicate AllSpace(s: string) {
    forall i :: 0 <= i < |s| ==> IsSpace(s[i])
  }

  predicate NoSpace(s: string) {
    forall i :: 0 <= i < |s| ==> !IsSpace(s[i])
  }

  predicate AllDigits(s: string) {
    forall i :: 0 <= i < |s| ==> IsDigit(s[i])
  }

  /** A digit is never whitespace. */
  lemma DigitsHaveNoSpace(s: string)
    requires AllDigits(s)
    ensures NoSpace(s)
  {
    forall i | 0 <= i < |s| ensures !IsSpace(s[i]) {
      assert IsDigit(s[i]);
    }
  }

  /** `[x] * n` in Python. */
  function Repeat<T>(x: T, n: nat): (r: seq<T>)
    ensures |r| == n
    ensures forall i :: 0 <= i < n ==> r[i] == x
  {
    if n == 0 then [] else [x] + Repeat(x, n - 1)
  }

  /** `"".join(ss)`. */
  function Concat<T>(ss: seq<seq<T>>): seq<T> {
    if |ss| == 0 then [] else ss[0] + Concat(ss[1..])
  }

  /** `sep.join(ts)`. */
  function Join(sep: string, ts: seq<string>): string {
    if |ts| == 0 then ""
    else if |ts| == 1 then ts[0]
    else ts[0] + sep + Join(sep, ts[1..])
  }

  lemma {:induction false} ConcatNoSpace(ts: seq<string>)
    requires forall i :: 0 <= i < |ts| ==> NoSpace(ts[i])
    ensures NoSpace(Concat(ts))
  {
    if |ts| > 0 {
      ConcatNoSpace(ts[1..]);
      var c := Concat(ts);
      assert c == ts[0] + Concat(ts[1..]);
      forall i | 0 <= i < |c| ensures !IsSpace(c[i]) {
        if i >= |ts[0]| { assert c[i] == Concat(ts[1..])[i - |ts[0]|]; }
      }
    }
  }

  /** The characters of `s` that are not whitespace, in order. */
  function RemoveWhitespace(s: string): (r: string)
    ensures NoSpace(r)
    ensures |r| <= |s|
  {
    if |s| == 0 then ""
    else (if IsSpace(s[0]) then "" else [s[0]]) + RemoveWhitespace(s[1..])
  }

  /** A string without whitespace is its own whitespace-free form. */
  lemma {:induction false} RemoveWhitespaceNoSpace(s: string)
    requires NoSpace(s)
    ensures RemoveWhitespace(s) == s
  {
    if |s| > 0 {
      assert NoSpace(s[1..]) by {
        forall i | 0 <= i < |s[1..]| ensures !IsSpace(s[1..][i]) {
          assert s[1..][i] == s[i + 1];
        }
      }
      RemoveWhitespaceNoSpace(s[1..]);
      assert s == [s[0]] + s[1..];
    }
  }

  lemma {:induction false} RemoveWhitespaceAppend(a: string, b: string)
    ensures RemoveWhitespace(a + b) == RemoveWhitespace(a) + RemoveWhitespace(b)
  {
    if |a| == 0 {
      assert a + b == b;
    } else {
      var head := if IsSpace(a[0]) then "" else [a[0]];
      assert (a + b)[0] == a[0];
      assert (a + b)[1..] == a[1..] + b;
      RemoveWhitespaceAppend(a[1..], b);
      calc {
        RemoveWhitespace(a + b);
        head + RemoveWhitespace(a[1..] + b);
        head + (RemoveWhitespace(a[1..]) + RemoveWhitespace(b));
        (head + RemoveWhitespace(a[1..])) + RemoveWhitespace(b);
        RemoveWhitespace(a) + RemoveWhitespace(b);
      }
    }
  }

  /** A string of whitespace has an empty whitespace-free form. */
  lemma {:induction false} RemoveWhitespaceAllSpace(s: string)
    requires AllSpace(s)
    ensures RemoveWhitespace(s) == ""
  {
    if |s| > 0 {
      assert AllSpace(s[1..]) by {
        forall i | 0 <= i < |s[1..]| ensures IsSpace(s[1..][i]) {
          assert s[1..][i] == s[i + 1];
        }
      }
      RemoveWhitespaceAllSpace(s[1..]);
    }
  }

  /** Whitespace between a whitespace-free word and the rest is dropped. */
  lemma RemoveWhitespaceSpaced(head: string, sep: string, rest: string)
    requires NoSpace(head) && AllSpace(sep)
    ensures RemoveWhitespace(head + sep + rest) == head + RemoveWhitespace(rest)
  {
    RemoveWhitespaceAppend(head + sep, rest);
    RemoveWhitespaceAppend(head, sep);
    RemoveWhitespaceNoSpace(head);
    RemoveWhitespaceAllSpace(sep);
    assert head + "" == head;
  }

  // ---------------------------------------------------------------- strip()

  /** `s.lstrip()`: the suffix left after dropping leading whitespace. */
  function StripLeft(s: string): (r: string)
    ensures |r| <= |s| && r == s[|s| - |r|..]
    ensures AllSpace(s[..|s| - |r|])
    ensures |r| > 0 ==> !IsSpace(r[0])
  {
    if |s| > 0 && IsSpace(s[0]) then StripLeft(s[1..]) else s
  }

  /** `s.rstrip()`: the prefix left after dropping trailing whitespace. */
  function StripRight(s: string): (r: string)
    ensures |r| <= |s| && r == s[..|r|]
    ensures AllSpace(s[|r|..])
    ensures |r| > 0 ==> !IsSpace(r[|r| - 1])
  {
    if |s| > 0 && IsSpace(s[|s| - 1]) then StripRight(s[..|s| - 1]) else s
  }

  /** `s.strip()`. */
  function Strip(s: string): string {
    StripRight(StripLeft(s))
  }

  /** `strip()` returns the infix of `s` between its leading and its trailing
      whitespace, and that infix begins and ends with a non-whitespace
      character. */
  lemma StripIsTrimmedInfix(s: string)
    ensures var r := Strip(s);
      && (exists i :: 0 <= i <= |s| - |r| && r == s[i..i + |r|] && AllSpace(s[..i]) && AllSpace(s[i + |r|..]))
      && (|r| > 0 ==> !IsSpace(r[0]) && !IsSpace(r[|r| - 1]))
  {
    TrimmedInfix(s, StripLeft(s), Strip(s));
  }

  /** A whitespace-trimmed prefix of a whitespace-trimmed suffix sits between
      the two trimmed runs. */
  lemma TrimmedInfix(s: string, l: string, r: string)
    requires |l| <= |s| && l == s[|s| - |l|..] && AllSpace(s[..|s| - |l|])
    requires |l| > 0 ==> !IsSpace(l[0])
    requires |r| <= |l| && r == l[..|r|] && AllSpace(l[|r|..])
    requires |r| > 0 ==> !IsSpace(r[|r| - 1])
    ensures exists i :: 0 <= i <= |s| - |r| && r == s[i..i + |r|] && AllSpace(s[..i]) && AllSpace(s[i + |r|..])
    ensures |r| > 0 ==> !IsSpace(r[0]) && !IsSpace(r[|r| - 1])
  {
    var i := |s| - |l|;
    assert s[i + |r|..] == l[|r|..];
    assert r == s[i..i + |r|];
    assert |r| > 0 ==> r[0] == l[0];
  }

  lemma {:induction false} StripLeftSkips(a: string, t: string)
    requires AllSpace(a)
    ensures StripLeft(a + t) == StripLeft(t)
  {
    if |a| > 0 {
      assert (a + t)[0] == a[0];
      assert (a + t)[1..] == a[1..] + t;
      StripLeftSkips(a[1..], t);
    } else {
      assert a + t == t;
    }
  }

  lemma {:induction false} StripLeftAppend(s: string, b: string)
    ensures StripLeft(s + b) == if StripLeft(s) == "" then StripLeft(b) else StripLeft(s) + b
  {
    if |s| == 0 {
      assert s + b == b;
    } else if IsSpace(s[0]) {
      assert (s + b)[1..] == s[1..] + b;
      StripLeftAppend(s[1..], b);
    }
  }

  lemma {:induction false} StripRightSkips(t: string, b: string)
    requires AllSpace(b)
    ensures StripRight(t + b) == StripRight(t)
  {
    if |b| > 0 {
      assert (t + b)[|t + b| - 1] == b[|b| - 1];
      assert (t + b)[..|t + b| - 1] == t + b[..|b| - 1];
      StripRightSkips(t, b[..|b| - 1]);
    } else {
      assert t + b == t;
    }
  }

  /** Whitespace around a string does not change what `strip()` returns. */
  lemma StripSurrounding(a: string, s: string, b: string)
    requires AllSpace(a) && AllSpace(b)
    ensures Strip(a + s + b) == Strip(s)
  {
    assert a + s + b == a + (s + b);
    StripLeftSkips(a, s + b);
    StripLeftAppend(s, b);
    if StripLeft(s) != "" {
      StripRightSkips(StripLeft(s), b);
    }
  }

  /** `strip()` leaves a string without whitespace unchanged. */
  lemma StripNoSpace(s: string)
    requires NoSpace(s)
    ensures Strip(s) == s
  {
  }

  // ---------------------------------------------------------------- split()

  /** The length of the longest whitespace-free prefix of `s`. */
  function TokenLen(s: string): (k: nat)
    ensures k <= |s|
    ensures NoSpace(s[..k])
    ensures k < |s| ==> IsSpace(s[k])
  {
    if |s| == 0 || IsSpace(s[0]) then 0 else 1 + TokenLen(s[1..])
  }

  /** `s.split()`: the maximal runs of non-whitespace characters, in order. */
  function Split(s: string): (r: seq<string>)
    ensures forall i :: 0 <= i < |r| ==> |r[i]| > 0 && NoSpace(r[i])
    decreases |s|
  {
    if |s| == 0 then []
    else if IsSpace(s[0]) then Split(s[1..])
    else
      var k := TokenLen(s);
      [s[..k]] + Split(s[k..])
  }

  /** Joining the tokens of `s` gives back `s` with its whitespace removed. */
  lemma {:induction false} SplitConcat(s: string)
    ensures Concat(Split(s)) == RemoveWhitespace(s)
    decreases |s|
  {
    if |s| == 0 {
    } else if IsSpace(s[0]) {
      SplitConcat(s[1..]);
    } else {
      var k := TokenLen(s);
      var ts := [s[..k]] + Split(s[k..]);
      assert ts[0] == s[..k] && ts[1..] == Split(s[k..]);
      SplitConcat(s[k..]);
      assert s == s[..k] + s[k..];
      RemoveWhitespaceAppend(s[..k], s[k..]);
      RemoveWhitespaceNoSpace(s[..k]);
    }
  }

  lemma {:induction false} SplitSkipsSpace(a: string, t: string)
    requires AllSpace(a)
    ensures Split(a + t) == Split(t)
  {
    if |a| > 0 {
      assert (a + t)[0] == a[0];
      assert (a + t)[1..] == a[1..] + t;
      SplitSkipsSpace(a[1..], t);
    } else {
      assert a + t == t;
    }
  }

  lemma {:induction false} TokenLenOf(tok: string, rest: string)
    requires NoSpace(tok)
    requires |rest| == 0 || IsSpace(rest[0])
    ensures TokenLen(tok + rest) == |tok|
  {
    if |tok| == 0 {
      assert tok + rest == rest;
    } else {
      assert (tok + rest)[0] == tok[0];
      assert (tok + rest)[1..] == tok[1..] + rest;
      TokenLenOf(tok[1..], rest);
    }
  }

  lemma SplitToken(tok: string, rest: string)
    requires |tok| > 0 && NoSpace(tok)
    requires |rest| == 0 || IsSpace(rest[0])
    ensures Split(tok + rest) == [tok] + Split(rest)
  {
    var s := tok + rest;
    TokenLenOf(tok, rest);
    assert s[0] == tok[0];
    assert s[..|tok|] == tok && s[|tok|..] == rest;
  }

  /** The separators around `n` tokens: `n + 1` whitespace runs, of which the
      inner ones are non-empty. */
  predicate Separators(seps: seq<string>) {
    forall i :: 0 <= i < |seps| ==> AllSpace(seps[i]) && (0 < i < |seps| - 1 ==> |seps[i]| > 0)
  }

  /** `seps[0] + ts[0] + seps[1] + ts[1] + ... + ts[n-1] + seps[n]`. */
  function Weave(seps: seq<string>, ts: seq<string>): string
    requires |seps| == |ts| + 1
  {
    if |ts| == 0 then seps[0] else seps[0] + ts[0] + Weave(seps[1..], ts[1..])
  }

  /** `split()` recovers the tokens of a string however they are separated. */
  lemma {:induction false} SplitWeave(seps: seq<string>, ts: seq<string>)
    requires |seps| == |ts| + 1 && Separators(seps)
    requires forall i :: 0 <= i < |ts| ==> |ts[i]| > 0 && NoSpace(ts[i])
    ensures Split(Weave(seps, ts)) == ts
  {
    if |ts| == 0 {
      SplitSkipsSpace(seps[0], "");
      assert seps[0] + "" == seps[0];
    } else {
      var rest := Weave(seps[1..], ts[1..]);
      SeparatorsTail(seps);
      SplitWeave(seps[1..], ts[1..]);
      if |ts| > 1 {
        assert rest[0] == seps[1][0];
      } else {
        assert rest == seps[1];
      }
      SplitAfterSpace(seps[0], ts[0], rest);
    }
  }

  lemma SeparatorsTail(seps: seq<string>)
    requires |seps| > 0 && Separators(seps)
    ensures Separators(seps[1..])
  {
    forall i | 0 <= i < |seps[1..]|
      ensures AllSpace(seps[1..][i]) && (0 < i < |seps[1..]| - 1 ==> |seps[1..][i]| > 0)
    {
      assert seps[1..][i] == seps[i + 1];
    }
  }

  /** A token behind leading whitespace and before whitespace (or the end)
      is the first item of `split()`. */
  lemma SplitAfterSpace(sep: string, tok: string, rest: string)
    requires AllSpace(sep) && |tok| > 0 && NoSpace(tok)
    requires |rest| == 0 || IsSpace(rest[0])
    ensures Split(sep + tok + rest) == [tok] + Split(rest)
  {
    assert sep + tok + rest == sep + (tok + rest);
    SplitSkipsSpace(sep, tok + rest);
    SplitToken(tok, rest);
  }

  // ------------------------------------------------------ string comparison

  /** Python's `a <= b` on strings: lexicographic by code point, a proper
      prefix coming first. */
  predicate LexLe(a: string, b: string) {
    |a| == 0 || (|b| > 0 && (if a[0] == b[0] then LexLe(a[1..], b[1..]) else a[0] < b[0]))
  }

  lemma {:induction false} LexLeReflexive(a: string)
    ensures LexLe(a, a)
  {
    if |a| > 0 {
      LexLeReflexive(a[1..]);
    }
  }

  lemma {:induction false} LexLeAntisymmetric(a: string, b: string)
    requires LexLe(a, b) && LexLe(b, a)
    ensures a == b
  {
    if |a| > 0 && |b| > 0 {
      LexLeAntisymmetric(a[1..], b[1..]);
      assert a == [a[0]] + a[1..] && b == [b[0]] + b[1..];
    }
  }

  lemma {:induction false} LexLeTransitive(a: string, b: string, c: string)
    requires LexLe(a, b) && LexLe(b, c)
    ensures LexLe(a, c)
  {
    if |a| > 0 && a[0] == b[0] && b[0] == c[0] {
      LexLeTransitive(a[1..], b[1..], c[1..]);
    }
  }

  lemma {:induction false} LexLeTotal(a: string, b: string)
    ensures LexLe(a, b) || LexLe(b, a)
  {
    if |a| > 0 && |b| > 0 && a[0] == b[0] {
      LexLeTotal(a[1..], b[1..]);
    }
  }

  /** A common prefix does not change how two strings compare. */
  lemma {:induction false} LexLeCommonPrefix(p: string, a: string, b: string)
    ensures LexLe(p + a, p + b) == LexLe(a, b)
  {
    if |p| > 0 {
      assert (p + a)[1..] == p[1..] + a && (p + b)[1..] == p[1..] + b;
      LexLeCommonPrefix(p[1..], a, b);
    } else {
      assert p + a == a && p + b == b;
    }
  }
}

=== FILE: transactions.dfy ===
/** The transaction records the processing functions and generators read: a
    Python dict modelled by the keys the core looks up, each optional because
    a record may lack it. */
module Transactions {
  import opened Results

  datatype Currency = Currency(code: Option<string>)

  datatype OperationAmount = OperationAmount(currency: Option<Currency>)

  /** `id` stands for the keys the core never reads, such as the amount and
      the currency name. */
  datatype Transaction = Transaction(
    id: int,
    state: Option<string>,
    date: Option<string>,
    operationAmount: Option<OperationAmount>,
    description: Option<string>)
}

=== FILE: widget.dfy ===
/** `mask_account_card` (src/widget.py): a labelled card or account number is
    tokenised on whitespace and routed to the matching masker. */
module Widget {
  import opened Results
  import opened Text
  import opened Masks

  /** The first token that marks an account rather than a card. */
  const AccountMarker := "Счет"

  /** `prefix + " " + masked` when the masker succeeded; its error otherwise. */
  function Labelled(prefix: string, masked: Result<string>): (r: Result<string>)
    ensures masked.Err? ==> r == masked
    ensures masked.Ok? ==> r.Ok? && r.value == prefix + " " + masked.value
  {
    match masked
    case Ok(m) => Ok(prefix + " " + m)
    case Err(e) => Err(e)
  }

  /** `mask_account_card`. */
  function MaskAccountCard(input: string): (r: Result<string>)
    ensures var parts := Split(input);
      && (|parts| < 2 <==> r == Err(BadInputFormat))
      && (|parts| >= 2 && parts[0] == AccountMarker ==>
            r == Labelled(AccountMarker, MaskAccount(FromString(Concat(parts[1..])))))
      && (|parts| >= 2 && parts[0] != AccountMarker ==>
            r == Labelled(Join(" ", parts[..|parts| - 1]), MaskCardNumber(FromString(parts[|parts| - 1]))))
  {
    var parts := Split(input);
    if |parts| < 2 then Err(BadInputFormat)
    else if parts[0] == AccountMarker then
      var masked :- MaskAccount(FromString(Concat(parts[1..])));
      Ok(AccountMarker + " " + masked)
    else
      var masked :- MaskCardNumber(FromString(parts[|parts| - 1]));
      Ok(Join(" ", parts[..|parts| - 1]) + " " + masked)
  }

  /** On an account line the account masker decides the outcome: its error
      comes back unchanged, and its mask is put after `Счет` and one space. */
  lemma AccountMaskerDecides(input: string)
    ensures var parts := Split(input);
      |parts| >= 2 && parts[0] == AccountMarker ==>
        var masked := MaskAccount(FromString(Concat(parts[1..])));
        && (masked.Err? ==> MaskAccountCard(input) == Err(masked.error))
        && (masked.Ok? ==> MaskAccountCard(input) == Ok(AccountMarker + " " + masked.value))
  {
    var parts := Split(input);
    if |parts| >= 2 && parts[0] == AccountMarker {
      assert MaskAccountCard(input) == Labelled(AccountMarker, MaskAccount(FromString(Concat(parts[1..]))));
    }
  }

  /** On any other line, split into the label words and a last token, the
      card masker applied to that token decides the outcome: its error comes
      back unchanged, and its mask is put after the words joined by single
      spaces and one more space. */
  lemma CardMaskerDecides(input: string, words: seq<string>, card: string)
    ensures |words| >= 1 && words[0] != AccountMarker && Split(input) == words + [card] ==>
      var masked := MaskCardNumber(FromString(card));
      && (masked.Err? ==> MaskAccountCard(input) == Err(masked.error))
      && (masked.Ok? ==> MaskAccountCard(input) == Ok(Join(" ", words) + " " + masked.value))
  {
    if |words| >= 1 && words[0] != AccountMarker && Split(input) == words + [card] {
      CardRoute(input, words, card);
    }
  }

  /** A card line: however the label words and the number are separated, the
      label comes back with single spaces and the number is masked as a card. */
  lemma CardLine(seps: seq<string>, words: seq<string>, card: string)
    requires |words| >= 1 && words[0] != AccountMarker
    requires |seps| == |words| + 2 && Separators(seps)
    requires forall i :: 0 <= i < |words| ==> |words[i]| > 0 && NoSpace(words[i])
    requires |card| > 0 && NoSpace(card)
    ensures MaskAccountCard(Weave(seps, words + [card])) == Labelled(Join(" ", words), MaskCardDigits(card))
  {
    var ts := words + [card];
    assert forall i :: 0 <= i < |ts| ==> |ts[i]| > 0 && NoSpace(ts[i]) by {
      forall i | 0 <= i < |ts| ensures |ts[i]| > 0 && NoSpace(ts[i]) {
        if i < |words| { assert ts[i] == words[i]; }
      }
    }
    SplitWeave(seps, ts);
    CardRoute(Weave(seps, ts), words, card);
    StripNoSpace(card);
  }

  lemma CardRoute(input: string, words: seq<string>, card: string)
    requires |words| >= 1 && words[0] != AccountMarker
    requires Split(input) == words + [card]
    ensures MaskAccountCard(input) == Labelled(Join(" ", words), MaskCardNumber(FromString(card)))
  {
    var parts := Split(input);
    assert parts[0] == words[0];
    assert parts[..|parts| - 1] == words;
  }

  /** An account line: the groups after the marker are glued together and
      masked as one account number. */
  lemma AccountLine(seps: seq<string>, groups: seq<string>)
    requires |groups| >= 1
    requires |seps| == |groups| + 2 && Separators(seps)
    requires forall i :: 0 <= i < |groups| ==> |groups[i]| > 0 && NoSpace(groups[i])
    ensures MaskAccountCard(Weave(seps, [AccountMarker] + groups)) ==
            Labelled(AccountMarker, MaskAccountDigits(Concat(groups)))
  {
    var ts := [AccountMarker] + groups;
    assert forall i :: 0 <= i < |ts| ==> |ts[i]| > 0 && NoSpace(ts[i]) by {
      forall i | 0 <= i < |ts| ensures |ts[i]| > 0 && NoSpace(ts[i]) {
        if i > 0 { assert ts[i] == groups[i - 1]; }
      }
    }
    var input := Weave(seps, ts);
    SplitWeave(seps, ts);
    var parts := Split(input);
    assert parts == ts;
    assert |parts| >= 2 && parts[0] == AccountMarker && parts[1..] == groups;
    ConcatNoSpace(groups);
    UnspacedArgument(Concat(groups));
    assert MaskAccountCard(input) == Labelled(AccountMarker, MaskAccount(FromString(Concat(groups))));
  }
}
